=== FILE: README.md ===
# belexDataEmailer — a Dafny model of the price watcher

belexDataEmailer polls the Belgrade Stock Exchange (Belex) page of each
configured symbol, keeps the last price per symbol, pushes `price` and
`status` events to browsers over server-sent events, mails an alert when a
price moves by 5 % or more, persists the prices with a coalescing writer,
and answers e-mails that name a symbol with the cached price.

This project models the decision logic of that engine in Dafny 4.11:

- `SymbolMatch` — `extractSymbolFromText`: ordered, case-insensitive,
  whole-word symbol search (`Ascii` holds the ASCII case mapping, the
  JavaScript `trim` and the case-insensitive substring search it uses).
- `PricePage` — the table/row search and the European number normalisation
  and parsing of `fetchPricePuppeteer`.
- `CheckSymbol` — `checkAndAlertSymbol`: three attempts with 2 s waits, the
  previous price, the `price` event, the ±5 % alert, the record overwrite,
  the save, and the error-to-`status` conversion. Side effects are an
  ordered trace of `Effect`s.
- `PollCycle` — `checkAll`: one page per symbol, strictly in order, always
  closed, a 700 ms pause after every symbol, and the early end when a page
  cannot be opened.
- `SaveDb` — `saveDB`: last write wins, at most one pending flush, write to
  a temporary file then rename, pending flag cleared in `finally`. A state
  machine over `Save(data)` and `TimerFire(outcome)` events.
- `AlertMail` — `makeTransporter` and `sendAlertEmail`.
- `ReplyGate` — `replyWithPrice`: cooldown, disk-then-memory price, the
  "no data" and "price" mails, and the cooldown-map update.
- `ImapListener` — `startImapListener`: credentials, the reconnect/backoff
  state machine with terminal authentication failure, and the per-message
  reply decision.
- `EventHub`, `ServerHost`, `Recipients` — the pure parts of `server.js`:
  the live-update client registry and broadcast, the tolerant snapshot load,
  the price lookup, and the comma-separated recipient list.
- `Domain`, `Wrappers`, `Seqs` — shared types and sequence helpers.

Prices are exact reals. The percentage change is an extended value
(`Domain.Pct`): finite for a non-zero previous price, otherwise
`Infinity`, `-Infinity` or `NaN` as JavaScript computes it. The alert rule
is evaluated on that value, so a previous price of 0 is modelled rather
than excluded.

External calls become inputs. These are the page loads or fetch outcomes,
whether `newPage` succeeds, the transport's answer to `sendMail`, the
contents of the database files, the parsed mail, and the clock. Timers are
explicit events.

The store writes `Functions/prices.json`. The reply and the start-up load
both read the root `prices.json`. The model therefore keeps these as two
distinct stores: `SaveDb.Store.target` is the first, and
`ReplyGate.DiskView` and `ServerHost.DbFile` are the second.

## Model

| member | source | states |
|---|---|---|
| SymbolMatch.ExtractSymbol | Functions/extractSymbolFromText.js:2-11 | Empty text gives no symbol; a returned symbol is one of the configured symbols, in its configured spelling |
| SymbolMatch.ExtractNone | Functions/extractSymbolFromText.js:3-10 | The result is null exactly when the text is empty or no configured symbol occurs in it as a whole word; so an empty symbol list always gives null |
| SymbolMatch.ExtractFirstConfigured | Functions/extractSymbolFromText.js:6-8 | The symbol returned is the first in configuration order that occurs as a whole word, whatever its position in the text (both directions) |
| SymbolMatch.ExtractIgnoresCase | Functions/extractSymbolFromText.js:4-7 | Texts equal up to letter case give the same answer, and so does the lower-cased text |
| SymbolMatch.HasWordSpec | Functions/extractSymbolFromText.js:7 | The executable `\b…\b` test holds exactly when the symbol occurs with no word character on either side |
| SymbolMatch.DinnNotAWord | Functions/extractSymbolFromText.js:7 | "DINN" inside "DINNPB" is not a whole-word match |
| SymbolMatch.EmbeddedSymbolSkipped | Functions/extractSymbolFromText.js:6-8 | With "DINN" configured before "DINNPB", any spelling of "cena dinnpb" yields "DINNPB" |
| SymbolMatch.ConfiguredSymbolsValid | server.js:26 | Every configured symbol is non-empty and made of word characters, so the search needs no regex escaping |
| Ascii.Upper | Functions/extractSymbolFromText.js:4 | Upper-casing keeps the length and maps each character by the ASCII case rule |
| Ascii.Trim | Functions/fetchPricePuppeteer.js:21 | The result is no longer than the input and neither starts nor ends with white space |
| Ascii.TrimIsInfix | Functions/fetchPricePuppeteer.js:21 | The trimmed text is the infix of the input between a white-space prefix and a white-space suffix, so only white space at the ends is removed |
| Ascii.TrimStartIsSuffix | Functions/fetchPricePuppeteer.js:21 | Trimming the start leaves a suffix of the input and removes only white space |
| Ascii.TrimEndIsPrefix | Functions/fetchPricePuppeteer.js:21 | Trimming the end leaves a prefix of the input and removes only white space |
| Ascii.MatchesIgnoringCaseSpec | Functions/fetchPricePuppeteer.js:15 | The executable case-insensitive search finds a match exactly when one exists |
| PricePage.PriceUrl | Functions/fetchPricePuppeteer.js:3 | The URL is the fixed Belex prefix followed by the symbol |
| PricePage.RowPrice | Functions/fetchPricePuppeteer.js:19-23 | A row yields a price text exactly when it has at least two cells and its trimmed first cell is "Cena"; the text is the trimmed second cell |
| PricePage.PriceTextChosen | Functions/fetchPricePuppeteer.js:11-25 | The price text comes from the first qualifying row of the first table whose first header matches "dnevni" in any case |
| PricePage.PriceTextMissing | Functions/fetchPricePuppeteer.js:11-25 | There is no price text exactly when there is no daily table or the first daily table has no "Cena" row |
| PricePage.RemoveDots | Functions/fetchPricePuppeteer.js:29 | The result holds no dot, only characters of the input, and a text without dots is unchanged |
| PricePage.ReplaceFirstSpec | Functions/fetchPricePuppeteer.js:29 | Only the first comma is replaced by a dot; every other position is unchanged |
| PricePage.NormalizeEuropean | Functions/fetchPricePuppeteer.js:29 | "whole,frac" normalises to the whole part without dots, then ".", then frac |
| PricePage.ParseFloatDecimal | Functions/fetchPricePuppeteer.js:30 | A digit string, a dot and a digit string parse to their decimal value |
| PricePage.PriceFromText | Functions/fetchPricePuppeteer.js:28-32 | A null or empty text is a not-found error; an unparsable normalised text is a parse error; a non-empty text whose normalised form parses yields exactly that number |
| PricePage.FetchPrice | Functions/fetchPricePuppeteer.js:2-33 | The result is a navigation error exactly when the page failed to load; a loaded page without a price text, or with an empty one, is "not found"; a non-empty chosen text gives the parse of its normalised form, or "unparsable" when there is none; a price is always such a parse |
| PricePage.FetchDailyPrice | Functions/fetchPricePuppeteer.js:10-32 | A loaded page whose first daily table has a first "Cena" row showing a well-formed European price yields that price as a decimal number |
| PricePage.FetchNoDailyPrice | Functions/fetchPricePuppeteer.js:12-28 | A page with no daily table, or whose first daily table has no "Cena" row, is "price not found", whatever later tables hold |
| PricePage.EuropeanPriceRead | Functions/fetchPricePuppeteer.js:28-32 | A well-formed European price "d.ddd,ff" reads as the decimal number it denotes |
| PricePage.EuropeanPriceExample | Functions/fetchPricePuppeteer.js:29-32 | "1.234,56" reads as 1234.56 |
| CheckSymbol.Tries | Functions/checkAndAlertSymbol.js:9-19 | n attempts produce 2n-1 effects, attempts and waits only, ending with the last attempt |
| CheckSymbol.TriesCounts | Functions/checkAndAlertSymbol.js:16 | n attempts carry exactly n-1 waits, each of 2000 ms and each between two attempts, so none comes after the last |
| CheckSymbol.Retry | Functions/checkAndAlertSymbol.js:9-19 | The fetch succeeds iff one of the three attempts does; on success the result is the first successful attempt and exactly that many attempts are made; on failure all three are made and the error is the last attempt's; the trace is those attempts with one wait fewer than attempts |
| CheckSymbol.RetryWaitsBetweenAttempts | Functions/checkAndAlertSymbol.js:9-19 | Every wait in the retry trace is 2000 ms and sits between two attempts; the trace ends with an attempt, and there is one wait fewer than attempts |
| CheckSymbol.FetchWithRetry | Functions/checkAndAlertSymbol.js:9-19 | The retry loop computes the same result and trace as the reference definition |
| CheckSymbol.FirstPagePriceWins | Functions/checkAndAlertSymbol.js:10-13 | A first page that shows a price ends the loop after one attempt, with that price |
| CheckSymbol.Check | Functions/checkAndAlertSymbol.js:5-40 | On failure the prices are unchanged; on success exactly the symbol's key is added or kept; the fetch trace comes first |
| CheckSymbol.CheckAllAttemptsFail | Functions/checkAndAlertSymbol.js:9-39 | Three failures: prices unchanged, no save, no price event, exactly one status event carrying the last error, three attempts and two waits |
| CheckSymbol.NavigationFailuresReported | Functions/checkAndAlertSymbol.js:9-38 | Three pages that fail to load leave the prices alone, save nothing, and end with a status event carrying the last navigation failure |
| CheckSymbol.CheckSuccessRecords | Functions/checkAndAlertSymbol.js:21-35 | On success the record becomes (current, now), other records are untouched, one price event carries the previous price, and the single save is the last effect |
| CheckSymbol.CheckAlertsIffThreshold | Functions/checkAndAlertSymbol.js:26-32 | One alert call iff there is a previous price and the change is at most -5 % or at least 5 %; no previous price means no alert; the alert comes right after the price event; there are exactly as many ALERT status events as alert calls |
| CheckSymbol.CheckAlertStatusFollowsCall | Functions/checkAndAlertSymbol.js:26-31 | On success every status event is the ALERT: it needs a previous price, comes right after the alert call, and carries the symbol and the change |
| CheckSymbol.AlertEffectsCounts | Functions/checkAndAlertSymbol.js:26-32 | The alert block holds one alert call and one ALERT status when there is a previous price and the threshold is crossed, none otherwise, and nothing else |
| CheckSymbol.AlertBand | Functions/checkAndAlertSymbol.js:27-28 | With a positive previous price the alert fires iff the price is at most 95 % or at least 105 % of it |
| CheckSymbol.DropOfSixPercentAlerts | Functions/checkAndAlertSymbol.js:27-30 | 100 then 94 is a -6 % change that alerts and records 94 |
| CheckSymbol.FirstObservationNoAlert | Functions/checkAndAlertSymbol.js:21-34 | A first observation creates the record, emits a price event with a null previous price, and has no alert |
| Domain.ChangePct | Functions/checkAndAlertSymbol.js:27 | The change is (current-prev)/prev*100 when prev is non-zero, and Infinity, -Infinity or NaN by the sign of current when it is zero |
| PollCycle.Reached | Functions/checkAll.js:7 | The number of symbols before the first page that cannot be opened |
| PollCycle.CycleAborts | Functions/checkAll.js:6-14 | The cycle stops early exactly when some page fails to open; fetch failures never stop it |
| PollCycle.CycleOrder | Functions/checkAll.js:6-9 | The checked symbols are the configured ones, once each and in order, up to the first page that fails to open |
| PollCycle.CycleCounts | Functions/checkAll.js:6-13 | The counts of pages opened, pages closed and 700 ms pauses all equal the number of symbols reached |
| PollCycle.PagesClosed | Functions/checkAll.js:7-12 | Every opened page is followed by the check and the close of the same symbol |
| PollCycle.AllPagesOpenCompletes | Functions/checkAll.js:6-14 | When every page opens, all symbols are checked in order with one pause each; no symbols means no events at all |
| PollCycle.CycleKeepsRecords | Functions/checkAll.js:6-14 | A cycle never removes a price record |
| PollCycle.RunCycle | Functions/checkAll.js:4-15 | The loop computes the same prices, trace and abort flag as the reference definition |
| SaveDb.SaveData | Functions/saveDB.js:14-20 | A save records its data as the latest, arms a timer only when none is pending, and does not touch the files |
| SaveDb.Fire | Functions/saveDB.js:21-32 | A flush clears the pending flag whatever happens; the target either keeps its old content or holds the latest data, and changes only when write and rename both succeed |
| SaveDb.SavesCoalesce | Functions/saveDB.js:15-24 | Any number of saves before the timer arms at most one timer and leave the last data as the one to write |
| SaveDb.LastWriteWins | Functions/saveDB.js:15-25 | After N saves, a successful flush leaves the N-th data in the target and nothing pending |
| SaveDb.FailedFlushKeepsTarget | Functions/saveDB.js:27-31 | A failed write or rename keeps the old target, and the next save arms a new timer |
| SaveDb.TargetAlwaysComplete | Functions/saveDB.js:22-25 | Through any events, the target is never a partially written file |
| SaveDb.SaveAll | Functions/saveDB.js:14-19 | A run of saves keeps the store invariant: one armed timer exactly while a flush is pending |
| SaveDb.FromModuleLoad | Functions/saveDB.js:11-32 | From module load, saves then a successful flush leave the last snapshot on disk, and no run leaves a partial file if there was none at load |
| AlertMail.MakeTransporter | Functions/sendAlertEmail.js:4-10 | An injected transport wins; otherwise there is a transport iff user and password are both set |
| AlertMail.AlertRecipients | Functions/sendAlertEmail.js:14 | A supplied list is used as is; otherwise the parsed ALERT_TO, or EMAIL_USER when that is unset |
| AlertMail.SendAlert | Functions/sendAlertEmail.js:12-37 | No transport means no mail; otherwise exactly one mail to the recipient list, subject starting "ALERT: " and the symbol, from EMAIL_USER; a failed send is only recorded |
| AlertMail.InjectedTransportAlwaysSends | Functions/sendAlertEmail.js:5 | An injected transport is used even without credentials |
| AlertMail.ShippedAlertWiring | Functions/sendAlertEmail.js:4-18 | With the host's dependencies the alert goes out iff both EMAIL_USER and EMAIL_PASS are set, to the host's parsed list |
| Recipients.Split | server.js:37 | Splitting yields at least one piece and no piece contains the separator |
| Recipients.SplitJoin | server.js:37 | Splitting a join of separator-free pieces gives the pieces back |
| Recipients.JoinSplit | server.js:37 | Joining the pieces of a split gives the original text back |
| Recipients.ParseList | server.js:37 | Every parsed address is non-empty, comma-free and trimmed |
| Recipients.ParseListIsSplitTrimFilter | server.js:37 | The parser is exactly: split on commas, trim each piece, drop the empty ones, in order |
| Recipients.ParseJoinRoundTrip | server.js:37 | Parsing the comma-join of clean addresses gives the same list back |
| Recipients.BlankEntriesDropped | server.js:37 | ", ,a" parses to ["a"] |
| Recipients.RecipientsFromEnv | server.js:36-37 | The list comes from ALERT_TO, or from EMAIL_USER when ALERT_TO is unset |
| ReplyGate.LastAt | Functions/replyWithPrice.js:9 | A recipient never replied to counts as last replied to at time 0 |
| ReplyGate.DiskPrice | Functions/replyWithPrice.js:16-28 | The file gives a price exactly when it parses and the symbol's record has a numeric last price |
| ReplyGate.ResolvePrice | Functions/replyWithPrice.js:16-32 | No price exactly when neither the file nor memory has one |
| ReplyGate.DiskHasPriority | Functions/replyWithPrice.js:16-32 | A price in the file is used whatever memory holds; memory is used only when the file has none |
| ReplyGate.ReplySubject | Functions/replyWithPrice.js:42 | "Re: " followed by the original subject, or by "Cena " and the symbol when the subject is empty |
| ReplyGate.Reply | Functions/replyWithPrice.js:4-65 | A mail is attempted iff out of cooldown with a transport and a user. The body is "no data" or the resolved price. The result is true iff the price mail was delivered. The cooldown map changes, to now, only on a delivered send |
| ReplyGate.CooldownSuppressesRepeat | Functions/replyWithPrice.js:9-13 | After a reply at t, a second call before t + cooldown sends nothing and changes nothing |
| ReplyGate.ReplyAfterWindow | Functions/replyWithPrice.js:9-60 | Once the window has passed, a configured sender always attempts a reply; it returns true iff a price exists and the send succeeds |
| ReplyGate.ShippedWiringNeverReplies | Functions/replyWithPrice.js:34-39 | Without a transport, which the host never passes, no mail is sent and the map is untouched, whatever the price |
| ReplyGate.FailedSendKeepsMap | Functions/replyWithPrice.js:41-63 | A failed send returns false and never records a reply time, in either branch |
| ImapListener.Start | Functions/startImapListener.js:7-19 | The listener is inert iff the trimmed user or password is empty; otherwise it starts with a 5000 ms backoff and one connection |
| ImapListener.IsAuthErrorSpec | Functions/startImapListener.js:48 | An error is an auth failure iff its code is AUTHENTICATIONFAILED or its message, with a missing one read as "undefined", contains "auth" in any case |
| ImapListener.Step | Functions/startImapListener.js:40-66 | Ready resets the backoff and opens the inbox. An auth error ends the connection and schedules nothing. Another error ends it and schedules after the current backoff. End schedules only without an auth failure. A timer doubles the backoff up to the cap and connects unless auth failed; a fire with no armed timer changes nothing. Only an auth error sets the auth-failed flag, and nothing clears it; Ready leaves the armed timers alone, and errors and End leave the backoff alone |
| ImapListener.Doubled | Functions/startImapListener.js:56 | The new backoff never exceeds 300000 ms, is exactly twice the old while that fits, is capped only when doubling overshoots, never shrinks, and stays at least 5000 ms |
| ImapListener.StepKeepsBackoffInRange | Functions/startImapListener.js:40-66 | Every callback keeps the backoff within [5000, 300000] |
| ImapListener.RunKeepsBackoffInRange | Functions/startImapListener.js:40-66 | Any sequence of callbacks keeps the backoff within [5000, 300000] |
| ImapListener.BackoffAlwaysInRange | Functions/startImapListener.js:19-62 | From start-up, whatever happens, the backoff stays between 5 s and 5 min |
| ImapListener.AuthFailureIsTerminal | Functions/startImapListener.js:23-27 | Once authentication has failed it stays failed and no connection is ever opened again |
| ImapListener.InertStaysSilent | Functions/startImapListener.js:14-17 | A disabled listener produces no effects |
| ImapListener.MissingCredentialsNeverConnect | Functions/startImapListener.js:8-17 | With an empty user or password no connection is ever attempted |
| ImapListener.FiresDoubleBackoff | Functions/startImapListener.js:56-62 | Consecutive reconnect timers follow the capped doubling sequence |
| ImapListener.BackoffSequence | Functions/startImapListener.js:19-56 | The delays are 5 s, 10 s, ... 160 s, then 5 min from the sixth reconnect on |
| ImapListener.ErrorAndEndReconnectTwice | Functions/startImapListener.js:46-66 | One failure reported by both error and end arms two timers and leads to two connections |
| ImapListener.ReadyResetsBackoff | Functions/startImapListener.js:40-44 | Ready sets the backoff back to 5000 ms |
| ImapListener.StripTags | Functions/startImapListener.js:88 | Stripping tags introduces no ">" |
| ImapListener.StripTagsTagFree | Functions/startImapListener.js:88 | After stripping, no "<" is followed by a ">" anywhere: no tag is left |
| ImapListener.StripTagsPlainText | Functions/startImapListener.js:88 | Text without "<" passes through unchanged |
| ImapListener.MailSymbol | Functions/startImapListener.js:89 | The symbol found is one of the configured symbols |
| ImapListener.HandleMessage | Functions/startImapListener.js:83-93 | A reply is requested iff the mail parsed, has a sender and names a symbol in the subject or body; the request goes to the sender with the trimmed subject |
| ImapListener.SubjectBeforeBody | Functions/startImapListener.js:89 | A symbol in the subject wins; the body is consulted only when the subject names none |
| ImapListener.NoSenderNoReply | Functions/startImapListener.js:86-90 | A mail without a sender address never gets a reply |
| ImapListener.NoSymbolsNoReply | Functions/startImapListener.js:89-90 | With no configured symbols no mail ever gets a reply |
| EventHub.Subscribe | server.js:63-76 | A new client is appended and receives the connected status and then the snapshot, unless its writes fail |
| EventHub.Disconnect | server.js:78-81 | Closing removes one registration of the client, and removing an absent client changes nothing |
| EventHub.DisconnectRemovesFirst | server.js:79-80 | It is the first registration that is removed, and the rest keep their order |
| EventHub.SubscribeThenDisconnect | server.js:70-81 | A fresh client that subscribes and closes leaves the registry as it was |
| EventHub.Broadcast | server.js:85-90 | Every delivery carries the identical frame and goes to a registered client whose write does not fail |
| EventHub.BroadcastOrder | server.js:87-89 | Deliveries follow registry order, with failing clients skipped and still registered |
| EventHub.BroadcastReachesAll | server.js:85-90 | With no failing write, every registered client gets the frame, in order |
| EventHub.SubscriberGetsBroadcasts | server.js:70-90 | A client that subscribed gets later broadcasts after all earlier clients |
| ServerHost.LoadSnapshot | server.js:29-32 | A missing or unparsable file gives the empty snapshot; a parsed one is used as is |
| ServerHost.OnlyParsedFileSeeds | server.js:29-32 | A parsed snapshot is taken whole, and a non-empty initial snapshot can only come from a file that parsed |
| ServerHost.LookupPrice | server.js:92-95 | The reply is the record under the ASCII-upper-cased symbol, or "no data yet" when there is none |
| ServerHost.LookupIgnoresCase | server.js:93-94 | The lookup ignores the ASCII letter case of the request, and never reaches a record stored under a key with an ASCII lower-case letter |

## Left out

- I/O and foreign libraries are not modelled: Puppeteer navigation and DOM text, the IMAP protocol, mail parsing, SMTP transport creation, Express routing and static files, cron, and dotenv. Their results are inputs to the model.
- Time and timers: `Date.now()` is an input clock, and `setTimeout` and `waitForTimeout` are explicit effects or events. The two clock reads in the symbol check (event and record) are taken as one `now`.
- Concurrency is not modelled. This covers the interleaving of the start-up cycle with cron cycles and concurrent message handlers; the store's timer is an explicit event.
- Logging, the credential-masking regex, and number formatting are not modelled. `toFixed(2)` and JSON serialisation are left out; an alert's subject is modelled by its "ALERT: symbol" head.
- `Functions/sendAndAlertSymbol.js` is left out: it is dead code that nothing imports. The diagnostic scripts `test-imap.js`, `test-imap-verbose.js`, `test-puppeteer.js` and `debug-env.js` are left out as well.
- The `/api/prices` route is not modelled; it returns the snapshot unchanged.
- The message batch around the per-message handler is not modelled: the `mail` event, the UNSEEN search and the fetch stream. Only one message's decision is.
- SymbolMatch.ExtractSymbol: letter case and word characters are ASCII only, and symbols are restricted to word characters. JavaScript's Unicode upper-casing and regex metacharacters in a symbol are not covered.
- PricePage.PriceFromText: `parseFloat` is modelled as leading white space, an optional sign, digits and an optional fraction. Exponents and `Infinity` are not covered.
- ImapListener.Step: the `once` registration per connection is not tracked. Event sequences a real connection could not produce are allowed, and every property is proved for all sequences. A timer firing with none armed is ignored.
- ReplyGate.Reply: timestamps and cooldowns are integers. A `NaN` cooldown, which would disable the gate, is not modelled. A record in the file whose `last` is neither a number, `null` nor absent is not covered.
- ServerHost.LoadSnapshot: the root file is taken to hold an object of records with a numeric `last`. The host also accepts a file that parses to `null`, a number, a string or an array, and records without a numeric `last`, and uses them as they are. With `null`, every later check throws after its fetch and ends as an error status. A record without `last` makes the change NaN, so it never alerts. Neither case is modelled.
- ServerHost.LookupPrice: the request is upper-cased with the ASCII rule of `Ascii.Upper`, not JavaScript's Unicode `toUpperCase`. So "ınfm" (dotless i) does not find an "INFM" record, and a request "ß" finds a key "ß"; the program upper-cases these to "INFM" and "SS".
- ServerHost.LookupIgnoresCase: all three clauses are about ASCII letter case. Under Unicode upper-casing a key such as "ß", which `Ascii.Upper` leaves alone, is not found by the request "ß", and requests such as "ınfm" reach "INFM"; neither is covered.
- SaveDb.Fire: the serialised JSON is modelled by the snapshot it encodes. The temporary file's content after a failed rename is not observed.

=== FILE: alert_mail.dfy ===
/** The alert sender (Functions/sendAlertEmail.js): pick a transport, work
    out the recipients, and hand exactly one mail to the transport unless
    there are no credentials. A failed send is logged and swallowed. */
module AlertMail {
  import opened Wrappers
  import opened Domain
  import Recipients

  /** The fields of `deps` the sender reads; `""` is an unset string. */
  datatype AlertDeps = AlertDeps(
    transporter: Option<Transporter>,
    emailUser: string,
    emailPass: string,
    alertToList: Option<seq<string>>)

  /** The process environment variables the sender falls back on. */
  datatype MailEnv = MailEnv(emailUser: string, emailPass: string, alertTo: string)

  /** `makeTransporter(deps)`: an injected transport wins; otherwise a
      credentialed SMTP transport, or none when user or password is unset. */
  function MakeTransporter(deps: AlertDeps, env: MailEnv): (t: Option<Transporter>)
    ensures deps.transporter.Some? ==> t == deps.transporter
    ensures deps.transporter.None? ==>
      (t.Some? <==> OrString(deps.emailUser, env.emailUser) != "" && OrString(deps.emailPass, env.emailPass) != "")
    ensures deps.transporter.None? && t.Some? ==>
      t.value == Smtp(OrString(deps.emailUser, env.emailUser), OrString(deps.emailPass, env.emailPass))
  {
    if deps.transporter.Some? then deps.transporter
    else
      var user := OrString(deps.emailUser, env.emailUser);
      var pass := OrString(deps.emailPass, env.emailPass);
      if user == "" || pass == "" then None else Some(Smtp(user, pass))
  }

  /** `deps.ALERT_TO_LIST`, or the parsed `ALERT_TO` / `EMAIL_USER`
      environment variables. A supplied list is used even when empty. */
  function AlertRecipients(deps: AlertDeps, env: MailEnv): (to: seq<string>)
    ensures deps.alertToList.Some? ==> to == deps.alertToList.value
    ensures deps.alertToList.None? ==> to == Recipients.RecipientsFromEnv(env.alertTo, env.emailUser)
  {
    match deps.alertToList
    case Some(list) => list
    case None => Recipients.RecipientsFromEnv(env.alertTo, env.emailUser)
  }

  function SubjectHead(symbol: string): string
  {
    "ALERT: " + symbol
  }

  /** The mail handed to the transport. Its subject is `SubjectHead(symbol)`
      followed by the change formatted to two decimals. */
  datatype Alert = Alert(
    from: string,
    to: seq<string>,
    subjectHead: string,
    symbol: string,
    prev: real,
    current: real,
    change: Pct)

  datatype AlertOutcome =
    | NotSent                                               // no transport
    | Attempted(via: Transporter, mail: Alert, delivered: bool)

  /** `sendAlertEmail(symbol, prev, current, change, deps)`; `sendOk` is the
      transport's answer. The function always returns normally. */
  function SendAlert(symbol: string, prev: real, current: real, change: Pct,
                     deps: AlertDeps, env: MailEnv, sendOk: bool): (r: AlertOutcome)
    ensures r.NotSent? <==> MakeTransporter(deps, env).None?
    ensures r.Attempted? ==> r.via == MakeTransporter(deps, env).value
    ensures r.Attempted? ==> r.mail.to == AlertRecipients(deps, env)
    ensures r.Attempted? ==> |r.mail.subjectHead| >= 7 && r.mail.subjectHead[..7] == "ALERT: " && r.mail.subjectHead[7..] == symbol
    ensures r.Attempted? ==> r.mail.from == OrString(deps.emailUser, env.emailUser)
    ensures r.Attempted? ==> r.mail.symbol == symbol && r.mail.prev == prev && r.mail.current == current && r.mail.change == change
    ensures r.Attempted? ==> r.delivered == sendOk
  {
    match MakeTransporter(deps, env)
    case None => NotSent
    case Some(t) =>
      var mail := Alert(OrString(deps.emailUser, env.emailUser), AlertRecipients(deps, env),
                        SubjectHead(symbol), symbol, prev, current, change);
      Attempted(t, mail, sendOk)
  }

  /** An injected transport is used whatever the credentials say. */
  lemma InjectedTransportAlwaysSends(symbol: string, prev: real, current: real, change: Pct,
                                     deps: AlertDeps, env: MailEnv, sendOk: bool)
    requires deps.transporter.Some?
    ensures SendAlert(symbol, prev, current, change, deps, env, sendOk).Attempted?
    ensures SendAlert(symbol, prev, current, change, deps, env, sendOk).via == deps.transporter.value
  {
  }

  /** The host's wiring: no injected transport, credentials and list taken
      from the environment. One mail goes out exactly when both credentials
      are set, to the same list the sender would have parsed itself. */
  lemma ShippedAlertWiring(symbol: string, prev: real, current: real, change: Pct,
                           env: MailEnv, sendOk: bool)
    ensures var deps := AlertDeps(None, env.emailUser, env.emailPass,
                                  Some(Recipients.RecipientsFromEnv(env.alertTo, env.emailUser)));
      var r := SendAlert(symbol, prev, current, change, deps, env, sendOk);
      && (r.Attempted? <==> env.emailUser != "" && env.emailPass != "")
      && (r.Attempted? ==> r.mail.to == AlertRecipients(AlertDeps(None, "", "", None), env))
  {
  }
}

=== FILE: ascii.dfy ===
/** Character classes and string helpers the source gets from JavaScript:
    `toUpperCase`, the regular-expression word class behind `\b`, `trim`,
    and a case-insensitive substring test (`/needle/i.test(hay)`).
    Upper-casing is modelled on ASCII letters only. */
module Ascii {

  predicate IsLower(c: char) { 'a' <= c <= 'z' }

  predicate IsUpper(c: char) { 'A' <= c <= 'Z' }

  predicate IsDigit(c: char) { '0' <= c <= '9' }

  /** The `\w` class of a non-Unicode regular expression: `[A-Za-z0-9_]`. */
  predicate IsWordChar(c: char) { IsLower(c) || IsUpper(c) || IsDigit(c) || c == '_' }

  /** The characters `String.prototype.trim` removes: ECMAScript WhiteSpace
      and LineTerminator code points. */
  predicate IsSpace(c: char)
  {
    c == ' ' || c == '\t' || c == '\n' || c == '\r' || c == '\U{000B}' || c == '\U{000C}'
    || c == '\U{00A0}' || c == '\U{1680}' || ('\U{2000}' <= c <= '\U{200A}')
    || c == '\U{2028}' || c == '\U{2029}' || c == '\U{202F}' || c == '\U{205F}'
    || c == '\U{3000}' || c == '\U{FEFF}'
  }

  function UpperChar(c: char): (u: char)
    ensures !IsLower(u)
    ensures IsWordChar(c) <==> IsWordChar(u)
    ensures !IsLower(c) ==> u == c
  {
    if IsLower(c) then (c as int - 32) as char else c
  }

  function LowerChar(c: char): (l: char)
    ensures !IsUpper(l)
    ensures UpperChar(l) == UpperChar(c)
  {
    if IsUpper(c) then (c as int + 32) as char else c
  }

  function Upper(s: string): (r: string)
    ensures |r| == |s|
    ensures forall i :: 0 <= i < |s| ==> r[i] == UpperChar(s[i])
  {
    if |s| == 0 then [] else [UpperChar(s[0])] + Upper(s[1..])
  }

  function Lower(s: string): (r: string)
    ensures |r| == |s|
    ensures forall i :: 0 <= i < |s| ==> r[i] == LowerChar(s[i])
  {
    if |s| == 0 then [] else [LowerChar(s[0])] + Lower(s[1..])
  }

  /** Two strings are equal up to ASCII letter case. */
  predicate EqualIgnoringCase(a: string, b: string)
  {
    Upper(a) == Upper(b)
  }

  /** Upper-casing is idempotent and forgets the original case. */
  lemma UpperIdempotent(s: string)
    ensures Upper(Upper(s)) == Upper(s)
    ensures Upper(Lower(s)) == Upper(s)
  {
  }

  function TrimStart(s: string): (r: string)
    ensures |r| <= |s|
    ensures |r| == 0 || !IsSpace(r[0])
  {
    if |s| > 0 && IsSpace(s[0]) then TrimStart(s[1..]) else s
  }

  function TrimEnd(s: string): (r: string)
    ensures |r| <= |s|
    ensures |r| == 0 || !IsSpace(r[|r| - 1])
  {
    if |s| > 0 && IsSpace(s[|s| - 1]) then TrimEnd(s[..|s| - 1]) else s
  }

  /** Trimming the start drops a white-space prefix: what is left is a
      suffix of `s`. */
  lemma {:induction false} TrimStartIsSuffix(s: string)
    ensures TrimStart(s) == s[|s| - |TrimStart(s)|..]
    ensures forall i :: 0 <= i < |s| - |TrimStart(s)| ==> IsSpace(s[i])
    decreases |s|
  {
    if |s| > 0 && IsSpace(s[0]) {
      var t := s[1..];
      var r := TrimStart(t);
      assert TrimStart(s) == r;
      TrimStartIsSuffix(t);
      assert t[|t| - |r|..] == s[|s| - |r|..];
      forall i | 0 <= i < |s| - |r|
        ensures IsSpace(s[i])
      {
        if i > 0 {
          assert s[i] == t[i - 1];
        }
      }
    }
  }

  /** Trimming the end drops a white-space suffix: what is left is a
      prefix of `s`. */
  lemma {:induction false} TrimEndIsPrefix(s: string)
    ensures TrimEnd(s) == s[..|TrimEnd(s)|]
    ensures forall i :: |TrimEnd(s)| <= i < |s| ==> IsSpace(s[i])
    decreases |s|
  {
    if |s| > 0 && IsSpace(s[|s| - 1]) {
      var t := s[..|s| - 1];
      var r := TrimEnd(t);
      assert TrimEnd(s) == r;
      TrimEndIsPrefix(t);
      assert t[..|r|] == s[..|r|];
      forall i | |r| <= i < |s|
        ensures IsSpace(s[i])
      {
        if i < |s| - 1 {
          assert s[i] == t[i];
        }
      }
    }
  }

  /** `String.prototype.trim`: drop white space at both ends. */
  function Trim(s: string): (r: string)
    ensures |r| <= |s|
    ensures |r| == 0 || (!IsSpace(r[0]) && !IsSpace(r[|r| - 1]))
  {
    TrimEndIsPrefix(TrimStart(s));
    TrimEnd(TrimStart(s))
  }

  /** Where the trimmed text starts in `s`. */
  function TrimOffset(s: string): (i: nat)
    ensures i <= |s|
  {
    |s| - |TrimStart(s)|
  }

  /** Trimming removes white space at the two ends and nothing else: the
      result is the infix of `s` between a white-space prefix and a
      white-space suffix. */
  lemma TrimIsInfix(s: string)
    ensures TrimOffset(s) + |Trim(s)| <= |s|
    ensures Trim(s) == s[TrimOffset(s)..TrimOffset(s) + |Trim(s)|]
    ensures forall j :: 0 <= j < TrimOffset(s) ==> IsSpace(s[j])
    ensures forall j :: TrimOffset(s) + |Trim(s)| <= j < |s| ==> IsSpace(s[j])
    ensures forall c :: c in Trim(s) ==> c in s
  {
    TrimStartIsSuffix(s);
    TrimSlice(s);
    TrimSuffixSpace(s);
    InfixChars(s, TrimOffset(s), Trim(s));
  }

  /** The trimmed text is the slice of `s` at its offset. */
  lemma TrimSlice(s: string)
    ensures TrimOffset(s) + |Trim(s)| <= |s|
    ensures Trim(s) == s[TrimOffset(s)..TrimOffset(s) + |Trim(s)|]
  {
    var a := TrimStart(s);
    var b := TrimEnd(a);
    assert b == Trim(s);
    TrimStartIsSuffix(s);
    TrimEndIsPrefix(a);
    PrefixOfSuffix(s, a, b);
  }

  /** Everything after the trimmed text is white space. */
  lemma TrimSuffixSpace(s: string)
    ensures forall j :: TrimOffset(s) + |Trim(s)| <= j < |s| ==> IsSpace(s[j])
  {
    var a := TrimStart(s);
    var b := TrimEnd(a);
    assert b == Trim(s);
    TrimStartIsSuffix(s);
    TrimEndIsPrefix(a);
    SpaceAfterPrefix(s, a, b);
  }

  /** A prefix of a suffix is an infix. */
  lemma PrefixOfSuffix(s: string, a: string, b: string)
    requires |a| <= |s| && a == s[|s| - |a|..]
    requires |b| <= |a| && b == a[..|b|]
    ensures b == s[|s| - |a|..|s| - |a| + |b|]
  {
  }

  /** White space after the prefix `b` of the suffix `a` is white space at
      the end of `s`. */
  lemma SpaceAfterPrefix(s: string, a: string, b: string)
    requires |a| <= |s| && a == s[|s| - |a|..]
    requires |b| <= |a| && forall i :: |b| <= i < |a| ==> IsSpace(a[i])
    ensures forall j :: |s| - |a| + |b| <= j < |s| ==> IsSpace(s[j])
  {
    forall j | |s| - |a| + |b| <= j < |s|
      ensures IsSpace(s[j])
    {
      assert s[j] == a[j - (|s| - |a|)];
    }
  }

  lemma InfixChars(s: string, i: nat, t: string)
    requires i + |t| <= |s| && t == s[i..i + |t|]
    ensures forall c :: c in t ==> c in s
  {
    forall c | c in t
      ensures c in s
    {
      var k :| 0 <= k < |t| && t[k] == c;
      assert s[i + k] == c;
    }
  }

  /** A string with no white space at either end is its own trim. */
  lemma TrimUnchanged(s: string)
    requires |s| == 0 || (!IsSpace(s[0]) && !IsSpace(s[|s| - 1]))
    ensures Trim(s) == s
  {
  }

  /** A string made only of white space trims to the empty string. */
  lemma {:induction false} TrimAllSpace(s: string)
    requires forall i :: 0 <= i < |s| ==> IsSpace(s[i])
    ensures Trim(s) == ""
  {
    if |s| > 0 {
      TrimAllSpace(s[1..]);
      assert TrimStart(s) == TrimStart(s[1..]);
    }
  }

  /** `needle` occurs in `hay` at position `i`, ignoring ASCII case. */
  predicate OccursAtIgnoringCase(hay: string, needle: string, i: int)
  {
    0 <= i && i + |needle| <= |hay| && EqualIgnoringCase(hay[i..i + |needle|], needle)
  }

  /** The specification of a case-insensitive substring search. */
  ghost predicate ContainsIgnoringCase(hay: string, needle: string)
  {
    exists i :: OccursAtIgnoringCase(hay, needle, i)
  }

  /** Executable search for `needle` at positions `i` and later. */
  predicate SearchIgnoringCase(hay: string, needle: string, i: nat)
    decreases |hay| - i
  {
    i + |needle| <= |hay| && (OccursAtIgnoringCase(hay, needle, i) || SearchIgnoringCase(hay, needle, i + 1))
  }

  /** The executable search finds a match exactly when one exists. */
  lemma {:induction false} SearchIgnoringCaseCorrect(hay: string, needle: string, i: nat)
    ensures SearchIgnoringCase(hay, needle, i) <==> exists k :: i <= k && OccursAtIgnoringCase(hay, needle, k)
    decreases |hay| - i
  {
    if i + |needle| <= |hay| {
      SearchIgnoringCaseCorrect(hay, needle, i + 1);
      if exists k :: i <= k && OccursAtIgnoringCase(hay, needle, k) {
        var k :| i <= k && OccursAtIgnoringCase(hay, needle, k);
        assert k == i || (i + 1 <= k && OccursAtIgnoringCase(hay, needle, k));
      }
    }
  }

  /** `/needle/i.test(hay)` for a needle without regular-expression
      metacharacters. */
  predicate MatchesIgnoringCase(hay: string, needle: string)
  {
    SearchIgnoringCase(hay, needle, 0)
  }

  lemma MatchesIgnoringCaseSpec(hay: string, needle: string)
    ensures MatchesIgnoringCase(hay, needle) <==> ContainsIgnoringCase(hay, needle)
  {
    SearchIgnoringCaseCorrect(hay, needle, 0);
  }
}

=== FILE: check_symbol.dfy ===
/** One symbol's check (Functions/checkAndAlertSymbol.js): fetch with up to
    three attempts and a 2 s wait between them, read the previous price,
    emit a `price` event, alert on a change of at least 5 % either way,
    overwrite the record and ask for a save. Every failure ends as a
    `status` event; nothing propagates. Side effects are an ordered trace. */
module CheckSymbol {
  import opened Wrappers
  import opened Domain
  import PricePage
  import Seqs

  const Attempts: nat := 3
  const RetryDelayMs: nat := 2000

  /** The observable side effects of a check, in the order they happen. */
  datatype Effect =
    | Attempt(index: nat)                                       // fetchPricePuppeteer
    | Wait(ms: nat)                                             // page.waitForTimeout
    | Emit(ev: Event)                                           // sseSend
    | AlertCall(symbol: string, prev: real, current: real, change: Pct)  // sendAlertEmail
    | SaveCall(data: Snapshot)                                  // saveDB(prices)

  predicate IsAttempt(e: Effect) { e.Attempt? }
  predicate IsWait(e: Effect) { e.Wait? }
  predicate IsSave(e: Effect) { e.SaveCall? }
  predicate IsAlert(e: Effect) { e.AlertCall? }
  predicate IsPriceEmit(e: Effect) { e.Emit? && e.ev.PriceEvent? }
  predicate IsStatusEmit(e: Effect) { e.Emit? && e.ev.StatusEvent? }

  /** What each attempt's fetch returns, from what the page shows on it. */
  function Outcomes(loads: seq<PricePage.PageLoad>, symbol: string): (r: seq<Result<real, FetchError>>)
    ensures |r| == |loads|
    ensures forall i :: 0 <= i < |loads| ==> r[i] == PricePage.FetchPrice(loads[i], symbol)
  {
    seq(|loads|, i requires 0 <= i < |loads| => PricePage.FetchPrice(loads[i], symbol))
  }

  /** The trace of `n` fetch attempts with a wait between consecutive ones. */
  function Tries(n: nat): (t: seq<Effect>)
    requires n >= 1
    ensures |t| == 2 * n - 1
    ensures t[|t| - 1] == Attempt(n - 1)
    ensures forall i :: 0 <= i < |t| ==> t[i].Attempt? || t[i].Wait?
  {
    if n == 1 then [Attempt(0)] else Tries(n - 1) + [Wait(RetryDelayMs), Attempt(n - 1)]
  }

  /** `n` attempts, `n - 1` waits, and never a wait after the last attempt. */
  lemma {:induction false} TriesCounts(n: nat)
    requires n >= 1
    ensures Seqs.Count(Tries(n), IsAttempt) == n
    ensures Seqs.Count(Tries(n), IsWait) == n - 1
    ensures forall i :: 0 <= i < |Tries(n)| && Tries(n)[i].Wait? ==>
      && Tries(n)[i] == Wait(RetryDelayMs)
      && 0 < i && Tries(n)[i - 1].Attempt?
      && i + 1 < |Tries(n)| && Tries(n)[i + 1].Attempt?
  {
    if n > 1 {
      var tail := [Wait(RetryDelayMs), Attempt(n - 1)];
      TriesCounts(n - 1);
      var t := Tries(n);
      var h := Tries(n - 1);
      assert t == h + tail;
      forall i | 0 <= i < |t| && t[i].Wait?
        ensures t[i] == Wait(RetryDelayMs) && 0 < i && t[i - 1].Attempt? && i + 1 < |t| && t[i + 1].Attempt?
      {
        if i < |h| {
          assert t[i] == h[i];
        } else {
          assert i == |h|;
          assert t[i - 1] == h[|h| - 1];
        }
      }
      Seqs.CountTwo(Wait(RetryDelayMs), Attempt(n - 1), IsAttempt);
      Seqs.CountTwo(Wait(RetryDelayMs), Attempt(n - 1), IsWait);
      Seqs.CountAppend(Tries(n - 1), tail, IsAttempt);
      Seqs.CountAppend(Tries(n - 1), tail, IsWait);
    } else {
      Seqs.CountOne(Attempt(0), IsAttempt);
      Seqs.CountOne(Attempt(0), IsWait);
    }
  }

  /** Index of the first attempt whose page yields a price (3 if none). */
  function FirstSuccess(outcomes: seq<Result<real, FetchError>>): (k: nat)
    ensures k <= |outcomes|
    ensures k < |outcomes| ==> outcomes[k].Ok?
    ensures forall j :: 0 <= j < k ==> outcomes[j].Err?
  {
    Seqs.FirstIndex(outcomes, (o: Result<real, FetchError>) => o.Ok?)
  }

  /** Reference definition of the retry loop: `outcomes[i]` is what
      `fetchPricePuppeteer` gives on attempt `i` (see `Outcomes`). The
      result is the first success, or the last attempt's error after three
      failures; the trace is the attempts made with one wait between each
      two of them. */
  function Retry(outcomes: seq<Result<real, FetchError>>): (r: (Result<real, FetchError>, seq<Effect>))
    requires |outcomes| == Attempts
    ensures r.0.Ok? <==> exists j :: 0 <= j < Attempts && outcomes[j].Ok?
    ensures r.0.Err? ==> r.0 == outcomes[Attempts - 1] && Seqs.Count(r.1, IsAttempt) == Attempts
    ensures r.0.Ok? ==>
      && FirstSuccess(outcomes) < Attempts
      && r.0 == outcomes[FirstSuccess(outcomes)]
      && Seqs.Count(r.1, IsAttempt) == FirstSuccess(outcomes) + 1
    ensures 1 <= Seqs.Count(r.1, IsAttempt) <= Attempts
    ensures r.1 == Tries(Seqs.Count(r.1, IsAttempt))
    ensures Seqs.Count(r.1, IsWait) == Seqs.Count(r.1, IsAttempt) - 1
  {
    var k := FirstSuccess(outcomes);
    var n := if k < Attempts then k + 1 else Attempts;
    TriesCounts(n);
    if k < Attempts then (outcomes[k], Tries(n))
    else (outcomes[Attempts - 1], Tries(n))
  }

  /** The `for` loop of lines 9-19. */
  method FetchWithRetry(outcomes: seq<Result<real, FetchError>>)
    returns (res: Result<real, FetchError>, trace: seq<Effect>)
    requires |outcomes| == Attempts
    ensures (res, trace) == Retry(outcomes)
  {
    var i := 0;
    trace := [];
    while true
      invariant 0 <= i < Attempts
      invariant forall j :: 0 <= j < i ==> outcomes[j].Err?
      invariant trace == if i == 0 then [] else Tries(i) + [Wait(RetryDelayMs)]
      decreases Attempts - i
    {
      trace := trace + [Attempt(i)];
      var r := outcomes[i];
      assert trace == Tries(i + 1) by {
        if i > 0 {
          assert Tries(i) + [Wait(RetryDelayMs)] + [Attempt(i)] == Tries(i) + [Wait(RetryDelayMs), Attempt(i)];
        }
      }
      if r.Ok? {
        assert FirstSuccess(outcomes) == i;
        res := r;
        return;
      }
      if i < Attempts - 1 {
        trace := trace + [Wait(RetryDelayMs)];
        i := i + 1;
      } else {
        assert FirstSuccess(outcomes) == Attempts;
        res := r;
        return;
      }
    }
  }

  datatype CheckResult = CheckResult(prices: Snapshot, effects: seq<Effect>)

  /** The alert part of lines 26-32: nothing without a previous price,
      otherwise an alert call and an ALERT status when the change crosses
      the threshold. */
  function AlertEffects(symbol: string, prev: Option<real>, current: real): seq<Effect>
  {
    match prev
    case None => []
    case Some(p) =>
      var change := ChangePct(p, current);
      if CrossesThreshold(change) then [AlertCall(symbol, p, current, change), Emit(StatusEvent(AlertStatus(symbol, change)))]
      else []
  }

  /** The alert effects hold at most one alert call, and nothing else but
      the ALERT status. */
  lemma AlertEffectsCounts(symbol: string, prev: Option<real>, current: real, p: Effect -> bool)
    requires forall e :: p(e) ==> !e.AlertCall? && !(e.Emit? && e.ev.StatusEvent?)
    ensures Seqs.Count(AlertEffects(symbol, prev, current), p) == 0
    ensures Seqs.Count(AlertEffects(symbol, prev, current), IsAlert)
      == if prev.Some? && CrossesThreshold(ChangePct(prev.value, current)) then 1 else 0
    ensures Seqs.Count(AlertEffects(symbol, prev, current), IsStatusEmit)
      == if prev.Some? && CrossesThreshold(ChangePct(prev.value, current)) then 1 else 0
  {
    var al := AlertEffects(symbol, prev, current);
    if |al| == 2 {
      Seqs.CountTwo(al[0], al[1], p);
      Seqs.CountTwo(al[0], al[1], IsAlert);
      Seqs.CountTwo(al[0], al[1], IsStatusEmit);
    }
  }

  function PrevPrice(prices: Snapshot, symbol: string): Option<real>
  {
    if symbol in prices then Some(prices[symbol].last) else None
  }

  /** `checkAndAlertSymbol(page, symbol, deps)`, with `now` the clock. */
  function Check(prices: Snapshot, symbol: string, outcomes: seq<Result<real, FetchError>>, now: int): (r: CheckResult)
    requires |outcomes| == Attempts
    ensures Retry(outcomes).0.Err? ==> r.prices == prices
    ensures Retry(outcomes).0.Ok? ==> r.prices.Keys == prices.Keys + {symbol}
    ensures |Retry(outcomes).1| <= |r.effects| && r.effects[..|Retry(outcomes).1|] == Retry(outcomes).1
  {
    var (res, tries) := Retry(outcomes);
    match res
    case Err(e) => CheckResult(prices, tries + [Emit(StatusEvent(CheckError(symbol, e)))])
    case Ok(current) =>
      var prev := PrevPrice(prices, symbol);
      var prices' := prices[symbol := PriceRecord(current, now)];
      CheckResult(prices', tries + [Emit(PriceEvent(symbol, current, prev, now))]
                           + AlertEffects(symbol, prev, current) + [SaveCall(prices')])
  }

  lemma CountTries(n: nat, p: Effect -> bool)
    requires n >= 1
    requires forall e :: p(e) ==> !e.Attempt? && !e.Wait?
    ensures Seqs.Count(Tries(n), p) == 0
  {
    Seqs.CountNone(Tries(n), p);
  }

  /** Three failed attempts: prices untouched, no save, no `price` event,
      exactly one `status` event naming the last error. */
  lemma CheckAllAttemptsFail(prices: Snapshot, symbol: string, outcomes: seq<Result<real, FetchError>>, now: int)
    requires |outcomes| == Attempts
    requires forall j :: 0 <= j < Attempts ==> outcomes[j].Err?
    ensures var r := Check(prices, symbol, outcomes, now);
      && r.prices == prices
      && Seqs.Count(r.effects, IsSave) == 0
      && Seqs.Count(r.effects, IsPriceEmit) == 0
      && Seqs.Count(r.effects, IsStatusEmit) == 1
      && Seqs.Count(r.effects, IsAttempt) == Attempts
      && Seqs.Count(r.effects, IsWait) == Attempts - 1
      && r.effects[|r.effects| - 1] == Emit(StatusEvent(CheckError(symbol, outcomes[Attempts - 1].error)))
  {
    var (res, tries) := Retry(outcomes);
    assert FirstSuccess(outcomes) == Attempts;
    assert tries == Tries(Attempts);
    TriesCounts(Attempts);
    var last := [Emit(StatusEvent(CheckError(symbol, res.error)))];
    CountTries(Attempts, IsSave);
    CountTries(Attempts, IsPriceEmit);
    CountTries(Attempts, IsStatusEmit);
    Seqs.CountAppend(tries, last, IsSave);
    Seqs.CountAppend(tries, last, IsPriceEmit);
    Seqs.CountAppend(tries, last, IsStatusEmit);
    Seqs.CountAppend(tries, last, IsAttempt);
    Seqs.CountOne(last[0], IsWait);
    Seqs.CountAppend(tries, last, IsWait);
  }

  /** The effects of a successful check, with the attempts named. */
  lemma CheckOkShape(prices: Snapshot, symbol: string, outcomes: seq<Result<real, FetchError>>, now: int)
    returns (k: nat, current: real)
    requires |outcomes| == Attempts
    requires Retry(outcomes).0.Ok?
    ensures k == FirstSuccess(outcomes) && outcomes[k] == Ok(current)
    ensures k < Attempts && Retry(outcomes) == (Ok(current), Tries(k + 1))
    ensures var prices' := prices[symbol := PriceRecord(current, now)];
      var prev := PrevPrice(prices, symbol);
      Check(prices, symbol, outcomes, now) ==
        CheckResult(prices', Tries(k + 1) + [Emit(PriceEvent(symbol, current, prev, now))]
                             + AlertEffects(symbol, prev, current) + [SaveCall(prices')])
  {
    k := FirstSuccess(outcomes);
    current := Retry(outcomes).0.value;
    assert Retry(outcomes).1 == Tries(k + 1);
  }

  /** A successful fetch overwrites this symbol's record with the new price
      and time, leaves every other record alone, emits one `price` event
      carrying the previous price, and saves the new prices exactly once, as
      the last effect. */
  lemma CheckSuccessRecords(prices: Snapshot, symbol: string, outcomes: seq<Result<real, FetchError>>, now: int)
    requires |outcomes| == Attempts
    requires Retry(outcomes).0.Ok?
    ensures var r := Check(prices, symbol, outcomes, now);
      var current := Retry(outcomes).0.value;
      && r.prices[symbol] == PriceRecord(current, now)
      && (forall s :: s != symbol ==> (s in r.prices <==> s in prices))
      && (forall s :: s != symbol && s in prices ==> r.prices[s] == prices[s])
      && Seqs.Count(r.effects, IsSave) == 1
      && r.effects[|r.effects| - 1] == SaveCall(r.prices)
      && Seqs.Count(r.effects, IsPriceEmit) == 1
      && Emit(PriceEvent(symbol, current, PrevPrice(prices, symbol), now)) in r.effects
  {
    var k, current := CheckOkShape(prices, symbol, outcomes, now);
    var prices' := prices[symbol := PriceRecord(current, now)];
    SuccessEffectsCounts(k, symbol, current, PrevPrice(prices, symbol), now, prices');
  }

  /** The effect trace of a success, counted without reference to how it
      was produced. */
  lemma SuccessEffectsCounts(k: nat, symbol: string, current: real, prev: Option<real>, now: int, saved: Snapshot)
    ensures var effs := Tries(k + 1) + [Emit(PriceEvent(symbol, current, prev, now))]
                        + AlertEffects(symbol, prev, current) + [SaveCall(saved)];
      && Seqs.Count(effs, IsSave) == 1
      && effs[|effs| - 1] == SaveCall(saved)
      && Seqs.Count(effs, IsPriceEmit) == 1
      && effs[|Tries(k + 1)|] == Emit(PriceEvent(symbol, current, prev, now))
  {
    var tries := Tries(k + 1);
    var pe := [Emit(PriceEvent(symbol, current, prev, now))];
    var al := AlertEffects(symbol, prev, current);
    var sv := [SaveCall(saved)];
    CountTries(k + 1, IsSave);
    CountTries(k + 1, IsPriceEmit);
    AlertEffectsCounts(symbol, prev, current, IsSave);
    AlertEffectsCounts(symbol, prev, current, IsPriceEmit);
    Seqs.CountOne(pe[0], IsSave);
    Seqs.CountOne(sv[0], IsSave);
    Seqs.CountOne(pe[0], IsPriceEmit);
    Seqs.CountOne(sv[0], IsPriceEmit);
    Seqs.CountAppend(tries, pe, IsSave);
    Seqs.CountAppend(tries + pe, al, IsSave);
    Seqs.CountAppend(tries + pe + al, sv, IsSave);
    Seqs.CountAppend(tries, pe, IsPriceEmit);
    Seqs.CountAppend(tries + pe, al, IsPriceEmit);
    Seqs.CountAppend(tries + pe + al, sv, IsPriceEmit);
    assert (tries + pe + al + sv)[|tries|] == pe[0];
  }

  /** Exactly one alert call happens, and only with a previous price, when
      the change reaches the threshold in either direction; the alert call
      comes right after the `price` event. */
  lemma CheckAlertsIffThreshold(prices: Snapshot, symbol: string, outcomes: seq<Result<real, FetchError>>, now: int)
    requires |outcomes| == Attempts
    requires Retry(outcomes).0.Ok?
    ensures var r := Check(prices, symbol, outcomes, now);
      var current := Retry(outcomes).0.value;
      && (symbol !in prices ==> Seqs.Count(r.effects, IsAlert) == 0)
      && (symbol in prices ==>
           Seqs.Count(r.effects, IsAlert) == (if CrossesThreshold(ChangePct(prices[symbol].last, current)) then 1 else 0))
      && (forall j :: 0 <= j < |r.effects| && IsAlert(r.effects[j]) ==> j > 0 && IsPriceEmit(r.effects[j - 1]))
      && Seqs.Count(r.effects, IsStatusEmit) == Seqs.Count(r.effects, IsAlert)
  {
    var k, current := CheckOkShape(prices, symbol, outcomes, now);
    var prev := PrevPrice(prices, symbol);
    var prices' := prices[symbol := PriceRecord(current, now)];
    SuccessAlertCounts(k, symbol, current, prev, now, prices');
    SuccessStatusCounts(k, symbol, current, prev, now, prices');
    AlertEffectsCounts(symbol, prev, current, IsSave);
  }

  /** On success every `status` event is the ALERT of line 30: it comes
      right after the alert call and carries the symbol and the change. */
  lemma CheckAlertStatusFollowsCall(prices: Snapshot, symbol: string, outcomes: seq<Result<real, FetchError>>, now: int)
    requires |outcomes| == Attempts
    requires Retry(outcomes).0.Ok?
    ensures var r := Check(prices, symbol, outcomes, now);
      var current := Retry(outcomes).0.value;
      forall j :: 0 <= j < |r.effects| && IsStatusEmit(r.effects[j]) ==>
        && symbol in prices && j > 0 && IsAlert(r.effects[j - 1])
        && r.effects[j] == Emit(StatusEvent(AlertStatus(symbol, ChangePct(prices[symbol].last, current))))
  {
    var k, current := CheckOkShape(prices, symbol, outcomes, now);
    SuccessStatusCounts(k, symbol, current, PrevPrice(prices, symbol), now, prices[symbol := PriceRecord(current, now)]);
  }

  /** The alert block is empty, or the alert call followed by its ALERT
      status. */
  lemma AlertEffectsShape(symbol: string, prev: Option<real>, current: real)
    ensures var al := AlertEffects(symbol, prev, current);
      || al == []
      || (prev.Some? && al == [AlertCall(symbol, prev.value, current, ChangePct(prev.value, current)),
                               Emit(StatusEvent(AlertStatus(symbol, ChangePct(prev.value, current))))])
  {
  }

  /** ALERT status events in the effect trace of a success: as many as in
      the alert block, each right after an alert call. */
  lemma SuccessStatusCounts(k: nat, symbol: string, current: real, prev: Option<real>, now: int, saved: Snapshot)
    ensures var effs := Tries(k + 1) + [Emit(PriceEvent(symbol, current, prev, now))]
                        + AlertEffects(symbol, prev, current) + [SaveCall(saved)];
      && Seqs.Count(effs, IsStatusEmit) == Seqs.Count(AlertEffects(symbol, prev, current), IsStatusEmit)
      && (forall j :: 0 <= j < |effs| && IsStatusEmit(effs[j]) ==>
            && prev.Some? && j > 0 && IsAlert(effs[j - 1])
            && effs[j] == Emit(StatusEvent(AlertStatus(symbol, ChangePct(prev.value, current)))))
  {
    var tries := Tries(k + 1);
    var pe := [Emit(PriceEvent(symbol, current, prev, now))];
    var al := AlertEffects(symbol, prev, current);
    var sv := [SaveCall(saved)];
    CountTries(k + 1, IsStatusEmit);
    Seqs.CountOne(pe[0], IsStatusEmit);
    Seqs.CountOne(sv[0], IsStatusEmit);
    Seqs.CountAppend(tries, pe, IsStatusEmit);
    Seqs.CountAppend(tries + pe, al, IsStatusEmit);
    Seqs.CountAppend(tries + pe + al, sv, IsStatusEmit);
    StatusAfterAlert(tries, pe[0], al, sv[0], symbol, prev, current);
  }

  lemma StatusAfterAlert(tries: seq<Effect>, pe: Effect, al: seq<Effect>, sv: Effect,
                         symbol: string, prev: Option<real>, current: real)
    requires forall i :: 0 <= i < |tries| ==> tries[i].Attempt? || tries[i].Wait?
    requires !IsStatusEmit(pe) && !IsStatusEmit(sv)
    requires al == AlertEffects(symbol, prev, current)
    ensures var effs := tries + [pe] + al + [sv];
      forall j :: 0 <= j < |effs| && IsStatusEmit(effs[j]) ==>
        && prev.Some? && j > 0 && IsAlert(effs[j - 1])
        && effs[j] == Emit(StatusEvent(AlertStatus(symbol, ChangePct(prev.value, current))))
  {
    AlertEffectsShape(symbol, prev, current);
    var effs := tries + [pe] + al + [sv];
    forall j | 0 <= j < |effs| && IsStatusEmit(effs[j])
      ensures prev.Some? && j > 0 && IsAlert(effs[j - 1])
      ensures effs[j] == Emit(StatusEvent(AlertStatus(symbol, ChangePct(prev.value, current))))
    {
      assert j == |tries| + 2;
    }
  }

  /** Where alert calls sit in the effect trace of a success. */
  lemma SuccessAlertCounts(k: nat, symbol: string, current: real, prev: Option<real>, now: int, saved: Snapshot)
    ensures var effs := Tries(k + 1) + [Emit(PriceEvent(symbol, current, prev, now))]
                        + AlertEffects(symbol, prev, current) + [SaveCall(saved)];
      && Seqs.Count(effs, IsAlert) == Seqs.Count(AlertEffects(symbol, prev, current), IsAlert)
      && (forall j :: 0 <= j < |effs| && IsAlert(effs[j]) ==> j > 0 && IsPriceEmit(effs[j - 1]))
  {
    var tries := Tries(k + 1);
    var pe := [Emit(PriceEvent(symbol, current, prev, now))];
    var al := AlertEffects(symbol, prev, current);
    var sv := [SaveCall(saved)];
    AlertEffectsShape(symbol, prev, current);
    CountTries(k + 1, IsAlert);
    Seqs.CountOne(pe[0], IsAlert);
    Seqs.CountOne(sv[0], IsAlert);
    Seqs.CountAppend(tries, pe, IsAlert);
    Seqs.CountAppend(tries + pe, al, IsAlert);
    Seqs.CountAppend(tries + pe + al, sv, IsAlert);
    AlertAfterPrice(tries, pe[0], al, sv[0], symbol, prev, current);
  }

  lemma AlertAfterPrice(tries: seq<Effect>, pe: Effect, al: seq<Effect>, sv: Effect,
                        symbol: string, prev: Option<real>, current: real)
    requires forall i :: 0 <= i < |tries| ==> tries[i].Attempt? || tries[i].Wait?
    requires IsPriceEmit(pe) && !IsAlert(sv)
    requires al == AlertEffects(symbol, prev, current)
    ensures var effs := tries + [pe] + al + [sv];
      forall j :: 0 <= j < |effs| && IsAlert(effs[j]) ==> j > 0 && IsPriceEmit(effs[j - 1])
  {
    AlertEffectsShape(symbol, prev, current);
    var effs := tries + [pe] + al + [sv];
    forall j | 0 <= j < |effs| && IsAlert(effs[j])
      ensures j > 0 && IsPriceEmit(effs[j - 1])
    {
      assert j == |tries| + 1;
    }
  }

  /** Three pages that all fail to load leave the prices alone and report
      the last navigation failure; the fetch model feeds the check through
      `Outcomes`. */
  lemma NavigationFailuresReported(prices: Snapshot, symbol: string, loads: seq<PricePage.PageLoad>, now: int)
    requires |loads| == Attempts
    requires forall j :: 0 <= j < |loads| ==> loads[j].LoadFailed?
    ensures var r := Check(prices, symbol, Outcomes(loads, symbol), now);
      && r.prices == prices
      && Seqs.Count(r.effects, IsSave) == 0
      && r.effects[|r.effects| - 1] == Emit(StatusEvent(CheckError(symbol, Navigation(loads[Attempts - 1].detail))))
  {
    CheckAllAttemptsFail(prices, symbol, Outcomes(loads, symbol), now);
  }

  /** Lines 16-17: the retry trace pauses 2000 ms between two consecutive
      attempts and never after the last one. */
  lemma RetryWaitsBetweenAttempts(outcomes: seq<Result<real, FetchError>>)
    requires |outcomes| == Attempts
    ensures var t := Retry(outcomes).1;
      && |t| > 0 && t[|t| - 1].Attempt?
      && Seqs.Count(t, IsWait) == Seqs.Count(t, IsAttempt) - 1
      && forall i :: 0 <= i < |t| && t[i].Wait? ==>
           && t[i] == Wait(RetryDelayMs)
           && 0 < i && t[i - 1].Attempt?
           && i + 1 < |t| && t[i + 1].Attempt?
  {
    var t := Retry(outcomes).1;
    TriesCounts(Seqs.Count(t, IsAttempt));
  }

  /** A first page that shows a price ends the retry loop after one
      attempt, with that price. */
  lemma FirstPagePriceWins(symbol: string, loads: seq<PricePage.PageLoad>)
    requires |loads| == Attempts
    requires PricePage.FetchPrice(loads[0], symbol).Ok?
    ensures Retry(Outcomes(loads, symbol)) == (PricePage.FetchPrice(loads[0], symbol), [Attempt(0)])
  {
    assert FirstSuccess(Outcomes(loads, symbol)) == 0;
  }

  /** A stored 100 followed by a fetched 94 is a -6 % change: one alert with
      that change, and the record now holds 94. */
  lemma DropOfSixPercentAlerts(prices: Snapshot, symbol: string, outcomes: seq<Result<real, FetchError>>, now: int)
    requires |outcomes| == Attempts
    requires symbol in prices && prices[symbol].last == 100.0
    requires Retry(outcomes).0 == Ok(94.0)
    ensures var r := Check(prices, symbol, outcomes, now);
      && r.prices[symbol].last == 94.0
      && AlertCall(symbol, 100.0, 94.0, Finite(-6.0)) in r.effects
      && Emit(PriceEvent(symbol, 94.0, Some(100.0), now)) in r.effects
  {
    var k, current := CheckOkShape(prices, symbol, outcomes, now);
    DropEffects(k, symbol, now, prices[symbol := PriceRecord(current, now)]);
  }

  lemma DropEffects(k: nat, symbol: string, now: int, saved: Snapshot)
    ensures var effs := Tries(k + 1) + [Emit(PriceEvent(symbol, 94.0, Some(100.0), now))]
                        + AlertEffects(symbol, Some(100.0), 94.0) + [SaveCall(saved)];
      && AlertCall(symbol, 100.0, 94.0, Finite(-6.0)) in effs
      && Emit(PriceEvent(symbol, 94.0, Some(100.0), now)) in effs
  {
    assert ChangePct(100.0, 94.0) == Finite(-6.0);
    var effs := Tries(k + 1) + [Emit(PriceEvent(symbol, 94.0, Some(100.0), now))]
                + AlertEffects(symbol, Some(100.0), 94.0) + [SaveCall(saved)];
    assert effs[|Tries(k + 1)| + 1] == AlertCall(symbol, 100.0, 94.0, Finite(-6.0));
    assert effs[|Tries(k + 1)|] == Emit(PriceEvent(symbol, 94.0, Some(100.0), now));
  }

  /** A first observation (no record yet) creates the record with no alert
      and a `price` event whose previous price is `null`. */
  lemma FirstObservationNoAlert(prices: Snapshot, symbol: string, outcomes: seq<Result<real, FetchError>>, now: int)
    requires |outcomes| == Attempts
    requires symbol !in prices
    requires Retry(outcomes).0.Ok?
    ensures var r := Check(prices, symbol, outcomes, now);
      && symbol in r.prices
      && AlertEffects(symbol, PrevPrice(prices, symbol), Retry(outcomes).0.value) == []
      && Emit(PriceEvent(symbol, Retry(outcomes).0.value, None, now)) in r.effects
  {
    var r := Check(prices, symbol, outcomes, now);
    var k := FirstSuccess(outcomes);
    assert r.effects[|Tries(k + 1)|] == Emit(PriceEvent(symbol, Retry(outcomes).0.value, None, now));
  }

  /** With a positive previous price the alert rule is a band: no alert
      strictly between 95 % and 105 % of the previous price. */
  lemma AlertBand(prev: real, current: real)
    requires prev > 0.0
    ensures CrossesThreshold(ChangePct(prev, current)) <==> current <= prev * 0.95 || current >= prev * 1.05
  {
    var v := (current - prev) / prev * 100.0;
    assert v * prev == (current - prev) * 100.0;
    assert v <= -5.0 <==> v * prev <= -5.0 * prev;
    assert v >= 5.0 <==> v * prev >= 5.0 * prev;
  }
}

=== FILE: domain.dfy ===
/** Types shared by the price-watch engine: price records and snapshots,
    the percentage change with JavaScript's division-by-zero outcomes, the
    events pushed to live observers, and the configured symbol list. */
module Domain {
  import opened Wrappers

  /** One record per symbol: `{ last, ts }`. */
  datatype PriceRecord = PriceRecord(last: real, ts: int)

  /** The in-memory `prices` object and the persisted snapshot. */
  type Snapshot = map<string, PriceRecord>

  /** The symbols the host configures (server.js line 26), in poll order. */
  const Symbols: seq<string> := ["JESV", "NIIS", "IMPL", "MTLC", "DNOS", "DINN", "DINNPB",
    "AERO", "TGAS", "FINT", "INFM", "ENHL", "ZTPK", "DNREM", "GFOM"]

  /** The value of `(current - prev) / prev * 100` as a JavaScript number:
      finite when `prev` is non-zero, otherwise `Infinity`, `-Infinity` or
      `NaN` depending on the sign of `current`. */
  datatype Pct = Finite(value: real) | PosInf | NegInf | NaN

  function ChangePct(prev: real, current: real): (p: Pct)
    ensures prev != 0.0 ==> p.Finite? && p.value * prev == (current - prev) * 100.0
    ensures prev == 0.0 ==> (p == PosInf <==> current > 0.0) && (p == NegInf <==> current < 0.0)
    ensures prev == 0.0 ==> (p == NaN <==> current == 0.0)
  {
    if prev != 0.0 then Finite((current - prev) / prev * 100.0)
    else if current > 0.0 then PosInf
    else if current < 0.0 then NegInf
    else NaN
  }

  /** The alert threshold in percent; inclusive on both sides. */
  const AlertThreshold: real := 5.0

  /** `change <= -5 || change >= 5` evaluated on a JavaScript number. */
  predicate CrossesThreshold(p: Pct)
  {
    match p
    case Finite(v) => v <= -AlertThreshold || v >= AlertThreshold
    case PosInf => true
    case NegInf => true
    case NaN => false
  }

  /** Messages carried by `status` events. */
  datatype StatusMsg =
    | Connected
    | AlertStatus(symbol: string, change: Pct)
    | CheckError(symbol: string, reason: FetchError)

  /** The ways one price fetch can fail. */
  datatype FetchError =
    | Navigation(detail: string)     // page.goto / waitForSelector gave up
    | PriceNotFound(symbol: string)  // no daily table, no "Cena" row, or empty text
    | Unparsable(symbol: string, text: string)

  /** The objects handed to `sseSend`. */
  datatype Event =
    | PriceEvent(symbol: string, current: real, prev: Option<real>, ts: int)
    | StatusEvent(msg: StatusMsg)
    | SnapshotEvent(prices: Snapshot)

  /** A mail transport: one injected through the dependencies, or one built
      from SMTP credentials. Sending through it is an external call whose
      success is an input to the model. */
  datatype Transporter = Injected(id: nat) | Smtp(user: string, pass: string)

  /** JavaScript's `a || b` on strings, where `""` is falsy. */
  function OrString(a: string, b: string): (r: string)
    ensures a != "" ==> r == a
    ensures a == "" ==> r == b
  {
    if a != "" then a else b
  }
}

=== FILE: event_hub.dfy ===
/** The live-update registry of the host (server.js lines 61-90): the list
    of open event-stream responses, the two greeting frames a new client
    gets, removal on close, and `sseSend`, which writes one identical frame
    to every client in list order.

    A client whose socket write throws is "broken"; the throw is swallowed,
    so such a client simply receives nothing and stays registered. */
module EventHub {
  import opened Domain
  import Seqs

  /** An open response object, compared by identity. */
  type ClientId = nat

  datatype Hub = Hub(clients: seq<ClientId>)

  /** `data: <JSON of ev>\n\n`: one serialisation shared by all clients. */
  datatype Frame = Frame(ev: Event)

  datatype Delivery = Delivery(client: ClientId, frame: Frame)

  /** A `GET /events` request: the client is appended, then greeted with
      `status: connected` and the current snapshot. Both writes sit in one
      `try`, so a broken client gets neither. */
  function Subscribe(h: Hub, c: ClientId, prices: Snapshot, broken: set<ClientId>): (r: (Hub, seq<Delivery>))
    ensures r.0.clients == h.clients + [c]
    ensures c in broken ==> r.1 == []
    ensures c !in broken ==>
      r.1 == [Delivery(c, Frame(StatusEvent(Connected))), Delivery(c, Frame(SnapshotEvent(prices)))]
  {
    var greeting := [Delivery(c, Frame(StatusEvent(Connected))), Delivery(c, Frame(SnapshotEvent(prices)))];
    (Hub(h.clients + [c]), if c in broken then [] else greeting)
  }

  /** The `close` handler: `indexOf` and `splice(idx, 1)` when found. */
  function Disconnect(h: Hub, c: ClientId): (r: Hub)
    ensures c !in h.clients ==> r == h
    ensures c in h.clients ==> |r.clients| == |h.clients| - 1
    ensures multiset(r.clients) == multiset(h.clients) - multiset{c}
  {
    var i := Seqs.FirstIndex(h.clients, x => x == c);
    if i < |h.clients| then
      assert h.clients == h.clients[..i] + [c] + h.clients[i + 1..];
      Hub(h.clients[..i] + h.clients[i + 1..])
    else
      assert c !in h.clients;
      h
  }

  /** Only the first registration of a client is removed; the others keep
      their order. */
  lemma DisconnectRemovesFirst(h: Hub, c: ClientId)
    requires c in h.clients
    ensures exists i :: (0 <= i < |h.clients| && h.clients[i] == c && c !in h.clients[..i]
                         && Disconnect(h, c).clients == h.clients[..i] + h.clients[i + 1..])
  {
    var i := Seqs.FirstIndex(h.clients, x => x == c);
    assert h.clients[i] == c;
    assert c !in h.clients[..i];
  }

  /** A fresh client that subscribes and then closes leaves the registry as
      it found it. */
  lemma SubscribeThenDisconnect(h: Hub, c: ClientId, prices: Snapshot, broken: set<ClientId>)
    requires c !in h.clients
    ensures Disconnect(Subscribe(h, c, prices, broken).0, c) == h
  {
    var cs := h.clients + [c];
    var i := Seqs.FirstIndex(cs, x => x == c);
    assert cs[|h.clients|] == c;
    assert i == |h.clients|;
    assert cs[..i] == h.clients;
  }

  /** `sseSend(obj)`: the frame, to every client that can take it, in list
      order. The registry itself is not touched. */
  function Broadcast(clients: seq<ClientId>, ev: Event, broken: set<ClientId>): (r: seq<Delivery>)
    ensures |r| <= |clients|
    ensures forall i :: 0 <= i < |r| ==> r[i].frame == Frame(ev) && r[i].client in clients && r[i].client !in broken
  {
    if |clients| == 0 then []
    else
      var rest := Broadcast(clients[1..], ev, broken);
      if clients[0] in broken then rest else [Delivery(clients[0], Frame(ev))] + rest
  }

  predicate Reachable(broken: set<ClientId>, c: ClientId) { c !in broken }

  function Receivers(ds: seq<Delivery>): (r: seq<ClientId>)
    ensures |r| == |ds| && forall i :: 0 <= i < |ds| ==> r[i] == ds[i].client
  {
    if |ds| == 0 then [] else [ds[0].client] + Receivers(ds[1..])
  }

  /** Broadcast order is registry order with the broken clients skipped. */
  lemma {:induction false} BroadcastOrder(clients: seq<ClientId>, ev: Event, broken: set<ClientId>)
    ensures Receivers(Broadcast(clients, ev, broken)) == Seqs.Filter(clients, c => Reachable(broken, c))
    decreases |clients|
  {
    if |clients| > 0 {
      BroadcastOrder(clients[1..], ev, broken);
      var rest := Broadcast(clients[1..], ev, broken);
      if clients[0] !in broken {
        assert ([Delivery(clients[0], Frame(ev))] + rest)[1..] == rest;
      }
    }
  }

  /** With no broken client, every registered client gets the frame exactly
      once per registration, in order. */
  lemma {:induction false} BroadcastReachesAll(clients: seq<ClientId>, ev: Event, broken: set<ClientId>)
    requires forall i :: 0 <= i < |clients| ==> clients[i] !in broken
    ensures Broadcast(clients, ev, broken) == seq(|clients|, i requires 0 <= i < |clients| => Delivery(clients[i], Frame(ev)))
    decreases |clients|
  {
    if |clients| > 0 {
      BroadcastReachesAll(clients[1..], ev, broken);
    }
  }

  /** A client that has just subscribed receives every later broadcast,
      after all clients registered before it. */
  lemma SubscriberGetsBroadcasts(h: Hub, c: ClientId, prices: Snapshot, ev: Event, broken: set<ClientId>)
    requires c !in broken
    ensures var ds := Broadcast(Subscribe(h, c, prices, broken).0.clients, ev, broken);
      |ds| > 0 && ds[|ds| - 1] == Delivery(c, Frame(ev))
  {
    BroadcastAppend(h.clients, [c], ev, broken);
    assert [c][1..] == [];
  }

  lemma {:induction false} BroadcastAppend(a: seq<ClientId>, b: seq<ClientId>, ev: Event, broken: set<ClientId>)
    ensures Broadcast(a + b, ev, broken) == Broadcast(a, ev, broken) + Broadcast(b, ev, broken)
    decreases |a|
  {
    if |a| == 0 {
      assert a + b == b;
    } else {
      assert (a + b)[1..] == a[1..] + b;
      BroadcastAppend(a[1..], b, ev, broken);
    }
  }
}

=== FILE: imap_listener.dfy ===
/** The mailbox listener (Functions/startImapListener.js): a reconnecting
    connection with exponential backoff and a terminal authentication
    failure, plus the per-message decision whether to auto-reply.

    Timers and connection callbacks are explicit events. `error` and `end`
    are distinct events and each may arm its own reconnect timer; the
    number of armed timers is part of the state. */
module ImapListener {
  import opened Wrappers
  import opened Ascii
  import opened Domain
  import SymbolMatch
  import Seqs

  const InitialBackoffMs: nat := 5000
  const MaxBackoffMs: nat := 5 * 60 * 1000

  /** The credential sources, in priority order; `""` is unset. */
  datatype ImapDeps = ImapDeps(imapUser: string, imapPass: string)
  datatype ImapEnv = ImapEnv(imapUser: string, emailUser: string, imapPass: string, emailPass: string)

  /** `(deps.IMAP_USER || IMAP_USER || EMAIL_USER || '').trim()`: the first
      set source wins even when it is only blanks. */
  function ImapUser(deps: ImapDeps, env: ImapEnv): string
  {
    Trim(OrString(deps.imapUser, OrString(env.imapUser, env.emailUser)))
  }

  function ImapPass(deps: ImapDeps, env: ImapEnv): string
  {
    Trim(OrString(deps.imapPass, OrString(env.imapPass, env.emailPass)))
  }

  /** The listener's closure state: none at all when it is disabled. */
  datatype Listener =
    | Inert
    | Live(backoff: nat, authFailed: bool, armed: nat)   // armed = reconnect timers pending

  /** The error object passed to the `error` callback; it may be absent,
      and its `textCode` and `message` may be missing. */
  datatype ImapError = ImapError(textCode: Option<string>, message: Option<string>)

  datatype ListenerEvent =
    | Ready
    | Error(err: Option<ImapError>)
    | End
    | TimerFire

  datatype ListenerEffect =
    | Connect                 // a new connection is created and `connect()` called
    | OpenInbox
    | EndConnection           // `imap.end()`
    | Schedule(delayMs: nat)  // `setTimeout(reconnect, delayMs)`

  predicate IsConnect(e: ListenerEffect) { e.Connect? }
  predicate IsSchedule(e: ListenerEffect) { e.Schedule? }

  /** `String(err.message)`: a missing message reads as "undefined". */
  function MessageText(m: Option<string>): string
  {
    m.GetOr("undefined")
  }

  /** The error handler's classification: the IMAP text code, or "auth"
      anywhere in the message in any letter case. */
  predicate IsAuthError(err: Option<ImapError>)
  {
    err.Some? &&
    (err.value.textCode == Some("AUTHENTICATIONFAILED") || MatchesIgnoringCase(MessageText(err.value.message), "auth"))
  }

  lemma IsAuthErrorSpec(err: Option<ImapError>)
    ensures IsAuthError(err) <==> (err.Some? &&
      (err.value.textCode == Some("AUTHENTICATIONFAILED") || ContainsIgnoringCase(MessageText(err.value.message), "auth")))
  {
    if err.Some? {
      MatchesIgnoringCaseSpec(MessageText(err.value.message), "auth");
    }
  }

  /** The reconnect timer's update: the delay doubles until it reaches the
      five-minute cap, and never leaves the allowed range. */
  function Doubled(b: nat): (r: nat)
    ensures r <= MaxBackoffMs
    ensures 2 * b <= MaxBackoffMs ==> r == 2 * b
    ensures r < 2 * b ==> r == MaxBackoffMs
    ensures b <= MaxBackoffMs ==> b <= r
    ensures InitialBackoffMs <= b ==> InitialBackoffMs <= r
  {
    if 2 * b <= MaxBackoffMs then 2 * b else MaxBackoffMs
  }

  /** `startImapListener(deps)`: disabled without both credentials, else
      the first `connectOnce()`. */
  function Start(deps: ImapDeps, env: ImapEnv): (r: (Listener, seq<ListenerEffect>))
    ensures r.0.Inert? <==> ImapUser(deps, env) == "" || ImapPass(deps, env) == ""
    ensures r.0.Inert? ==> r.1 == []
    ensures r.0.Live? ==> r.0 == Live(InitialBackoffMs, false, 0) && r.1 == [Connect]
  {
    if ImapUser(deps, env) == "" || ImapPass(deps, env) == "" then (Inert, [])
    else (Live(InitialBackoffMs, false, 0), [Connect])
  }

  /** `connectOnce()`: refuses once authentication has failed. */
  function ConnectOnce(authFailed: bool): seq<ListenerEffect>
  {
    if authFailed then [] else [Connect]
  }

  /** One callback. A timer firing when none is armed cannot happen and is
      ignored; a disabled listener has no callbacks. */
  function Step(l: Listener, ev: ListenerEvent): (r: (Listener, seq<ListenerEffect>))
    ensures l.Inert? ==> r == (Inert, [])
    ensures l.Live? ==> r.0.Live?
    ensures l.Live? && l.authFailed ==> r.0.authFailed && Connect !in r.1
    ensures l.Live? && ev.Ready? ==> r.0.backoff == InitialBackoffMs && r.1 == [OpenInbox]
    ensures l.Live? && ev.Error? && IsAuthError(ev.err) ==>
      r.0.authFailed && r.0.armed == l.armed && r.1 == [EndConnection]
    ensures l.Live? && ev.Error? && !IsAuthError(ev.err) ==>
      r.0.armed == l.armed + 1 && r.1 == [EndConnection, Schedule(l.backoff)]
    ensures l.Live? && ev.End? ==>
      (r.0.armed == l.armed + (if l.authFailed then 0 else 1)) && (r.1 == if l.authFailed then [] else [Schedule(l.backoff)])
    ensures l.Live? && ev.TimerFire? && l.armed > 0 ==>
      r.0.armed == l.armed - 1 && r.0.backoff == Doubled(l.backoff) && (Connect in r.1 <==> !l.authFailed)
    ensures l.Live? && ev.TimerFire? && l.armed == 0 ==> r == (l, [])
    ensures l.Live? ==> r.0.authFailed == (l.authFailed || (ev.Error? && IsAuthError(ev.err)))
    ensures l.Live? && ev.Ready? ==> r.0.armed == l.armed
    ensures l.Live? && (ev.Error? || ev.End?) ==> r.0.backoff == l.backoff
  {
    match l
    case Inert => (Inert, [])
    case Live(b, af, armed) =>
      match ev
      case Ready => (Live(InitialBackoffMs, af, armed), [OpenInbox])
      case Error(err) =>
        if IsAuthError(err) then (Live(b, true, armed), [EndConnection])
        else (Live(b, af, armed + 1), [EndConnection, Schedule(b)])
      case End =>
        if af then (l, []) else (Live(b, af, armed + 1), [Schedule(b)])
      case TimerFire =>
        if armed == 0 then (l, [])
        else (Live(Doubled(b), af, armed - 1), ConnectOnce(af))
  }

  /** A sequence of callbacks, with all the effects in order. */
  function Run(l: Listener, evs: seq<ListenerEvent>): (Listener, seq<ListenerEffect>)
    decreases |evs|
  {
    if |evs| == 0 then (l, [])
    else
      var first := Step(l, evs[0]);
      var rest := Run(first.0, evs[1..]);
      (rest.0, first.1 + rest.1)
  }

  /** The backoff is within its bounds, the invariant every step keeps. */
  predicate BackoffInRange(l: Listener)
  {
    l.Live? ==> InitialBackoffMs <= l.backoff <= MaxBackoffMs
  }

  lemma StepKeepsBackoffInRange(l: Listener, ev: ListenerEvent)
    requires BackoffInRange(l)
    ensures BackoffInRange(Step(l, ev).0)
  {
  }

  lemma {:induction false} RunKeepsBackoffInRange(l: Listener, evs: seq<ListenerEvent>)
    requires BackoffInRange(l)
    ensures BackoffInRange(Run(l, evs).0)
    decreases |evs|
  {
    if |evs| > 0 {
      StepKeepsBackoffInRange(l, evs[0]);
      RunKeepsBackoffInRange(Step(l, evs[0]).0, evs[1..]);
    }
  }

  /** Whatever happens, the backoff of a started listener stays between
      5 seconds and 5 minutes. */
  lemma BackoffAlwaysInRange(deps: ImapDeps, env: ImapEnv, evs: seq<ListenerEvent>)
    ensures var l := Run(Start(deps, env).0, evs).0;
      l.Live? ==> InitialBackoffMs <= l.backoff <= MaxBackoffMs
  {
    RunKeepsBackoffInRange(Start(deps, env).0, evs);
  }

  /** Authentication failure is terminal: it is never cleared and no
      connection is ever opened again, whatever follows. */
  lemma {:induction false} AuthFailureIsTerminal(l: Listener, evs: seq<ListenerEvent>)
    requires l.Live? && l.authFailed
    ensures Run(l, evs).0.Live? && Run(l, evs).0.authFailed
    ensures Connect !in Run(l, evs).1
    decreases |evs|
  {
    if |evs| > 0 {
      var (l1, out1) := Step(l, evs[0]);
      AuthFailureIsTerminal(l1, evs[1..]);
      var (l2, out2) := Run(l1, evs[1..]);
      assert Run(l, evs).1 == out1 + out2;
    }
  }

  /** A listener without credentials never does anything. */
  lemma {:induction false} InertStaysSilent(evs: seq<ListenerEvent>)
    ensures Run(Inert, evs) == (Inert, [])
    decreases |evs|
  {
    if |evs| > 0 {
      InertStaysSilent(evs[1..]);
      assert Step(Inert, evs[0]) == (Inert, []);
      var empty: seq<ListenerEffect> := [];
      assert Run(Inert, evs).0 == Inert;
      assert Run(Inert, evs).1 == empty + empty == empty;
    }
  }

  lemma MissingCredentialsNeverConnect(deps: ImapDeps, env: ImapEnv, evs: seq<ListenerEvent>)
    requires ImapUser(deps, env) == "" || ImapPass(deps, env) == ""
    ensures Start(deps, env).1 == [] && Run(Start(deps, env).0, evs).1 == []
  {
    InertStaysSilent(evs);
  }

  /** `2^k`. */
  function Pow2(k: nat): (r: nat)
    ensures r >= 1
  {
    if k == 0 then 1 else 2 * Pow2(k - 1)
  }

  /** The backoff after `k` reconnect timers with no `ready` in between:
      5 s, 10 s, 20 s, ... capped at 5 minutes. */
  function BackoffAfter(k: nat): nat
  {
    if InitialBackoffMs * Pow2(k) <= MaxBackoffMs then InitialBackoffMs * Pow2(k) else MaxBackoffMs
  }

  lemma DoubledBackoffAfter(k: nat)
    ensures Doubled(BackoffAfter(k)) == BackoffAfter(k + 1)
  {
    assert Pow2(k + 1) == 2 * Pow2(k);
    assert InitialBackoffMs * Pow2(k + 1) == 2 * (InitialBackoffMs * Pow2(k));
  }

  function Fires(n: nat): (r: seq<ListenerEvent>)
    ensures |r| == n && forall i :: 0 <= i < n ==> r[i] == TimerFire
  {
    if n == 0 then [] else [TimerFire] + Fires(n - 1)
  }

  /** `n` consecutive reconnect timers after `k` earlier ones continue the
      capped doubling sequence. */
  lemma {:induction false} FiresDoubleBackoff(k: nat, af: bool, armed: nat, n: nat)
    requires n <= armed
    ensures Run(Live(BackoffAfter(k), af, armed), Fires(n)).0 == Live(BackoffAfter(k + n), af, armed - n)
    decreases n
  {
    if n > 0 {
      DoubledBackoffAfter(k);
      assert Fires(n)[1..] == Fires(n - 1);
      FiresDoubleBackoff(k + 1, af, armed - 1, n - 1);
    }
  }

  /** The first reconnect delays are 5, 10, 20, 40, 80, 160 seconds, then
      5 minutes for good. */
  lemma BackoffSequence()
    ensures BackoffAfter(0) == 5000 && BackoffAfter(1) == 10000 && BackoffAfter(5) == 160000
    ensures forall k :: k >= 6 ==> BackoffAfter(k) == MaxBackoffMs
  {
    assert Pow2(5) == 32;
    forall k: nat | k >= 6
      ensures BackoffAfter(k) == MaxBackoffMs
    {
      Pow2Monotone(6, k);
    }
  }

  lemma {:induction false} Pow2Monotone(j: nat, k: nat)
    requires j <= k
    ensures Pow2(j) <= Pow2(k)
    decreases k
  {
    if j < k {
      Pow2Monotone(j, k - 1);
    }
  }

  /** One failed connection that reports both `error` and `end` arms two
      reconnect timers, so two connections follow. */
  lemma ErrorAndEndReconnectTwice(b: nat, err: Option<ImapError>)
    requires !IsAuthError(err)
    ensures var (l, out) := Run(Live(b, false, 0), [Error(err), End, TimerFire, TimerFire]);
      && out == [EndConnection, Schedule(b), Schedule(b), Connect, Connect]
      && l == Live(Doubled(Doubled(b)), false, 0)
  {
    var l1 := Live(b, false, 1);
    var l2 := Live(b, false, 2);
    var l3 := Live(Doubled(b), false, 1);
    var l4 := Live(Doubled(Doubled(b)), false, 0);
    var e3 := [TimerFire];
    var e2 := [TimerFire, TimerFire];
    var e1 := [End, TimerFire, TimerFire];
    var e0 := [Error(err), End, TimerFire, TimerFire];
    assert e3[1..] == [] && e2[1..] == e3 && e1[1..] == e2 && e0[1..] == e1;
    assert Run(l3, e3).0 == l4 && Run(l3, e3).1 == [Connect];
    assert Run(l2, e2).0 == l4 && Run(l2, e2).1 == [Connect, Connect];
    assert Run(l1, e1).0 == l4 && Run(l1, e1).1 == [Schedule(b), Connect, Connect];
    assert Run(Live(b, false, 0), e0).0 == l4;
    assert Run(Live(b, false, 0), e0).1 == [EndConnection, Schedule(b), Schedule(b), Connect, Connect];
  }

  /** `ready` resets the delay, whatever it had grown to. */
  lemma ReadyResetsBackoff(b: nat, af: bool, armed: nat)
    ensures Step(Live(b, af, armed), Ready).0.backoff == InitialBackoffMs
  {
  }

  // ----- The per-message pipeline (lines 85-90) -----

  /** What the mail parser yields that the pipeline reads: the first
      sender's address, the subject, and the plain and HTML bodies. */
  datatype ParsedMail = ParsedMail(from: Option<string>, subject: Option<string>, text: Option<string>, html: Option<string>)

  /** Position of the first `>` in `s`, or `|s|`. */
  function CloseAt(s: string): (k: nat)
    ensures k <= |s| && (k < |s| ==> s[k] == '>') && forall j :: 0 <= j < k ==> s[j] != '>'
  {
    Seqs.FirstIndex(s, c => c == '>')
  }

  /** `html.replace(/<[^>]*>/g, ' ')`: every `<` with a later `>` starts a
      tag that ends at the first such `>`, and the tag becomes one space;
      a `<` with no `>` after it stays. */
  function StripTags(s: string): (r: string)
    ensures '>' in r ==> '>' in s
    decreases |s|
  {
    if |s| == 0 then ""
    else if s[0] == '<' && CloseAt(s[1..]) < |s[1..]| then " " + StripTags(s[1..][CloseAt(s[1..]) + 1..])
    else [s[0]] + StripTags(s[1..])
  }

  /** No `<` is followed anywhere by a `>`: no tag is left. */
  predicate TagFree(r: string)
  {
    forall i, j :: 0 <= i < j < |r| && r[i] == '<' ==> r[j] != '>'
  }

  lemma {:induction false} StripTagsTagFree(s: string)
    ensures TagFree(StripTags(s))
    decreases |s|
  {
    if |s| > 0 {
      var t := s[1..];
      if s[0] == '<' && CloseAt(t) < |t| {
        var u := t[CloseAt(t) + 1..];
        StripTagsTagFree(u);
        var r := StripTags(s);
        assert r == " " + StripTags(u);
        forall i, j | 0 <= i < j < |r| && r[i] == '<'
          ensures r[j] != '>'
        {
          assert r[i] == StripTags(u)[i - 1] && r[j] == StripTags(u)[j - 1];
        }
      } else {
        StripTagsTagFree(t);
        var r := StripTags(s);
        assert r == [s[0]] + StripTags(t);
        forall i, j | 0 <= i < j < |r| && r[i] == '<'
          ensures r[j] != '>'
        {
          if i == 0 {
            assert '>' !in t;
            assert r[j] == StripTags(t)[j - 1];
            assert r[j] in StripTags(t);
          } else {
            assert r[i] == StripTags(t)[i - 1] && r[j] == StripTags(t)[j - 1];
          }
        }
      }
    }
  }

  /** Text without a `<` passes through unchanged. */
  lemma {:induction false} StripTagsPlainText(s: string)
    requires '<' !in s
    ensures StripTags(s) == s
    decreases |s|
  {
    if |s| > 0 {
      StripTagsPlainText(s[1..]);
    }
  }

  /** The sender used for the reply: the first address, when set. */
  function Sender(p: ParsedMail): Option<string>
  {
    if p.from.Some? && p.from.value != "" then p.from else None
  }

  /** The trimmed subject, `""` when absent. */
  function MailSubject(p: ParsedMail): string
  {
    Trim(p.subject.GetOr(""))
  }

  /** The plain body, a space, then the HTML body with its tags stripped. */
  function MailBody(p: ParsedMail): string
  {
    p.text.GetOr("") + " " + StripTags(p.html.GetOr(""))
  }

  /** The symbol named in the subject, else the one named in the body. */
  function MailSymbol(p: ParsedMail, symbols: seq<string>): (r: Option<string>)
    ensures r.Some? ==> r.value in symbols
  {
    SymbolMatch.ExtractSymbol(MailSubject(p), symbols).OrElse(SymbolMatch.ExtractSymbol(MailBody(p), symbols))
  }

  /** The reply request handed to the reply gate. */
  datatype ReplyRequest = ReplyRequest(to: string, subject: string, symbol: string)

  /** The `end` handler of one fetched message: `None` for a message that
      failed to parse or that asks for nothing. */
  function HandleMessage(parsed: Option<ParsedMail>, symbols: seq<string>): (r: Option<ReplyRequest>)
    ensures parsed.None? ==> r.None?
    ensures parsed.Some? ==>
      (r.Some? <==> Sender(parsed.value).Some? && MailSymbol(parsed.value, symbols).Some?)
    ensures r.Some? ==>
      && r.value.to == parsed.value.from.value
      && r.value.subject == MailSubject(parsed.value)
      && r.value.symbol in symbols
  {
    match parsed
    case None => None
    case Some(p) =>
      var sym := MailSymbol(p, symbols);
      var from := Sender(p);
      if sym.Some? && from.Some? then Some(ReplyRequest(from.value, MailSubject(p), sym.value)) else None
  }

  /** The subject is searched first: a symbol it names wins over anything
      in the body, and the body is consulted only when the subject names
      none. */
  lemma SubjectBeforeBody(p: ParsedMail, symbols: seq<string>)
    requires Sender(p).Some?
    ensures SymbolMatch.ExtractSymbol(MailSubject(p), symbols).Some? ==>
      HandleMessage(Some(p), symbols) == Some(ReplyRequest(p.from.value, MailSubject(p), SymbolMatch.ExtractSymbol(MailSubject(p), symbols).value))
    ensures SymbolMatch.ExtractSymbol(MailSubject(p), symbols).None? ==>
      (HandleMessage(Some(p), symbols).Some? <==> SymbolMatch.ExtractSymbol(MailBody(p), symbols).Some?)
  {
  }

  /** A message with no sender never gets a reply, whatever it says. */
  lemma NoSenderNoReply(p: ParsedMail, symbols: seq<string>)
    requires p.from.None? || p.from == Some("")
    ensures HandleMessage(Some(p), symbols).None?
  {
  }

  /** With no configured symbols no message ever gets a reply. */
  lemma NoSymbolsNoReply(parsed: Option<ParsedMail>)
    ensures HandleMessage(parsed, []).None?
  {
  }
}

=== FILE: poll_cycle.dfy ===
/** The poll cycle (Functions/checkAll.js): for each configured symbol, in
    order, open a page, run the symbol check, close the page whatever
    happened, then pause 700 ms. Opening a page is outside the `try`, so a
    failure there ends the cycle (the host logs the rejected promise). */
module PollCycle {
  import opened Wrappers
  import opened Domain
  import opened CheckSymbol
  import Seqs

  const PauseMs: nat := 700

  /** Per symbol: whether `browser.newPage()` succeeds, what each fetch
      attempt returns, and the clock during the check. */
  datatype SymbolInput = SymbolInput(pageOpens: bool, outcomes: seq<Result<real, FetchError>>, now: int)

  predicate WellFormed(symbols: seq<string>, inputs: seq<SymbolInput>)
  {
    |inputs| == |symbols| && forall i :: 0 <= i < |inputs| ==> |inputs[i].outcomes| == Attempts
  }

  datatype CycleEvent =
    | OpenPage(symbol: string)
    | OpenFailed(symbol: string)
    | Checked(symbol: string, effects: seq<Effect>)
    | ClosePage(symbol: string)
    | Pause(ms: nat)

  predicate IsOpen(e: CycleEvent) { e.OpenPage? }
  predicate IsClose(e: CycleEvent) { e.ClosePage? }
  predicate IsPause(e: CycleEvent) { e.Pause? }

  datatype CycleResult = CycleResult(prices: Snapshot, trace: seq<CycleEvent>, aborted: bool)

  predicate Blocked(input: SymbolInput) { !input.pageOpens }

  /** The number of symbols before the first page that fails to open. */
  function Reached(inputs: seq<SymbolInput>): (k: nat)
    ensures k <= |inputs|
    ensures k < |inputs| ==> !inputs[k].pageOpens
    ensures forall j :: 0 <= j < k ==> inputs[j].pageOpens
  {
    Seqs.FirstIndex(inputs, Blocked)
  }

  /** The events of one fully processed symbol. */
  function SymbolEvents(symbol: string, effects: seq<Effect>): seq<CycleEvent>
  {
    [OpenPage(symbol), Checked(symbol, effects), ClosePage(symbol), Pause(PauseMs)]
  }

  /** Reference definition of `checkAll(browser, deps)`. */
  function Cycle(prices: Snapshot, symbols: seq<string>, inputs: seq<SymbolInput>): CycleResult
    requires WellFormed(symbols, inputs)
    decreases |symbols|
  {
    if |symbols| == 0 then CycleResult(prices, [], false)
    else if !inputs[0].pageOpens then CycleResult(prices, [OpenFailed(symbols[0])], true)
    else
      var c := Check(prices, symbols[0], inputs[0].outcomes, inputs[0].now);
      var rest := Cycle(c.prices, symbols[1..], inputs[1..]);
      CycleResult(rest.prices, SymbolEvents(symbols[0], c.effects) + rest.trace, rest.aborted)
  }

  /** The symbols that were checked, in trace order. */
  function CheckedSymbols(trace: seq<CycleEvent>): seq<string>
  {
    if |trace| == 0 then []
    else (if trace[0].Checked? then [trace[0].symbol] else []) + CheckedSymbols(trace[1..])
  }

  lemma CheckedSymbolsAppend(a: seq<CycleEvent>, b: seq<CycleEvent>)
    ensures CheckedSymbols(a + b) == CheckedSymbols(a) + CheckedSymbols(b)
  {
    if |a| > 0 {
      assert (a + b)[1..] == a[1..] + b;
      CheckedSymbolsAppend(a[1..], b);
    } else {
      assert a + b == b;
    }
  }

  lemma SymbolEventsFacts(symbol: string, effects: seq<Effect>)
    ensures CheckedSymbols(SymbolEvents(symbol, effects)) == [symbol]
    ensures Seqs.Count(SymbolEvents(symbol, effects), IsOpen) == 1
    ensures Seqs.Count(SymbolEvents(symbol, effects), IsClose) == 1
    ensures Seqs.Count(SymbolEvents(symbol, effects), IsPause) == 1
  {
    var a := [OpenPage(symbol), Checked(symbol, effects)];
    var b := [ClosePage(symbol), Pause(PauseMs)];
    assert SymbolEvents(symbol, effects) == a + b;
    CheckedSymbolsAppend(a, b);
    assert a[1..] == [a[1]] && a[1..][1..] == [];
    assert b[1..] == [b[1]] && b[1..][1..] == [];
    Seqs.CountTwo(a[0], a[1], IsOpen);
    Seqs.CountTwo(b[0], b[1], IsOpen);
    Seqs.CountAppend(a, b, IsOpen);
    Seqs.CountTwo(a[0], a[1], IsClose);
    Seqs.CountTwo(b[0], b[1], IsClose);
    Seqs.CountAppend(a, b, IsClose);
    Seqs.CountTwo(a[0], a[1], IsPause);
    Seqs.CountTwo(b[0], b[1], IsPause);
    Seqs.CountAppend(a, b, IsPause);
  }

  /** One step of the cycle, with the symbol check's result named. */
  lemma CycleStep(prices: Snapshot, symbols: seq<string>, inputs: seq<SymbolInput>)
    returns (next: Snapshot, effects: seq<Effect>)
    requires WellFormed(symbols, inputs) && |symbols| > 0 && inputs[0].pageOpens
    ensures var rest := Cycle(next, symbols[1..], inputs[1..]);
      Cycle(prices, symbols, inputs) == CycleResult(rest.prices, SymbolEvents(symbols[0], effects) + rest.trace, rest.aborted)
  {
    var c := Check(prices, symbols[0], inputs[0].outcomes, inputs[0].now);
    next, effects := c.prices, c.effects;
  }

  /** The cycle stops early exactly when some page fails to open; fetch
      failures play no part. */
  lemma {:induction false} CycleAborts(prices: Snapshot, symbols: seq<string>, inputs: seq<SymbolInput>)
    requires WellFormed(symbols, inputs)
    ensures Cycle(prices, symbols, inputs).aborted <==> Reached(inputs) < |symbols|
    decreases |symbols|
  {
    if |symbols| > 0 && inputs[0].pageOpens {
      var c := Check(prices, symbols[0], inputs[0].outcomes, inputs[0].now);
      CycleAborts(c.prices, symbols[1..], inputs[1..]);
      ReachedStep(inputs);
    }
  }

  lemma ReachedStep(inputs: seq<SymbolInput>)
    requires |inputs| > 0 && inputs[0].pageOpens
    ensures Reached(inputs) == 1 + Reached(inputs[1..])
  {
    assert !Blocked(inputs[0]);
  }

  /** Symbols are checked once each, in configured order, up to the first
      page that fails to open. */
  lemma {:induction false} CycleOrder(prices: Snapshot, symbols: seq<string>, inputs: seq<SymbolInput>)
    requires WellFormed(symbols, inputs)
    ensures CheckedSymbols(Cycle(prices, symbols, inputs).trace) == symbols[..Reached(inputs)]
    decreases |symbols|
  {
    if |symbols| > 0 && !inputs[0].pageOpens {
      assert [OpenFailed(symbols[0])][1..] == [];
    } else if |symbols| > 0 {
      var next, effects := CycleStep(prices, symbols, inputs);
      CycleOrder(next, symbols[1..], inputs[1..]);
      ReachedStep(inputs);
      OrderStep(symbols, effects, Cycle(next, symbols[1..], inputs[1..]).trace, Reached(inputs[1..]));
    }
  }

  lemma OrderStep(symbols: seq<string>, effects: seq<Effect>, rest: seq<CycleEvent>, k: nat)
    requires k < |symbols|
    requires CheckedSymbols(rest) == symbols[1..][..k]
    ensures CheckedSymbols(SymbolEvents(symbols[0], effects) + rest) == symbols[..k + 1]
  {
    SymbolEventsFacts(symbols[0], effects);
    CheckedSymbolsAppend(SymbolEvents(symbols[0], effects), rest);
    assert symbols[..k + 1] == [symbols[0]] + symbols[1..][..k];
  }

  /** Every opened page is closed, and a pause follows every checked symbol,
      the last one included. */
  lemma {:induction false} CycleCounts(prices: Snapshot, symbols: seq<string>, inputs: seq<SymbolInput>)
    requires WellFormed(symbols, inputs)
    ensures var t := Cycle(prices, symbols, inputs).trace;
      && Seqs.Count(t, IsOpen) == Reached(inputs)
      && Seqs.Count(t, IsClose) == Reached(inputs)
      && Seqs.Count(t, IsPause) == Reached(inputs)
    decreases |symbols|
  {
    if |symbols| > 0 && !inputs[0].pageOpens {
      Seqs.CountOne(OpenFailed(symbols[0]), IsOpen);
      Seqs.CountOne(OpenFailed(symbols[0]), IsClose);
      Seqs.CountOne(OpenFailed(symbols[0]), IsPause);
    } else if |symbols| > 0 {
      var c := Check(prices, symbols[0], inputs[0].outcomes, inputs[0].now);
      var rest := Cycle(c.prices, symbols[1..], inputs[1..]);
      CycleCounts(c.prices, symbols[1..], inputs[1..]);
      var head := SymbolEvents(symbols[0], c.effects);
      SymbolEventsFacts(symbols[0], c.effects);
      Seqs.CountAppend(head, rest.trace, IsOpen);
      Seqs.CountAppend(head, rest.trace, IsClose);
      Seqs.CountAppend(head, rest.trace, IsPause);
      ReachedStep(inputs);
    }
  }

  /** Each page opened is closed two events later, with the check of the
      same symbol in between. */
  lemma {:induction false} PagesClosed(prices: Snapshot, symbols: seq<string>, inputs: seq<SymbolInput>)
    requires WellFormed(symbols, inputs)
    ensures OpensClosed(Cycle(prices, symbols, inputs).trace)
    decreases |symbols|
  {
    if |symbols| > 0 && inputs[0].pageOpens {
      var next, effects := CycleStep(prices, symbols, inputs);
      PagesClosed(next, symbols[1..], inputs[1..]);
      var rest := Cycle(next, symbols[1..], inputs[1..]).trace;
      OpenClosedPrefix(symbols[0], effects, rest);
    }
  }

  /** Every `OpenPage` is followed by the check and the close of the same
      symbol. */
  predicate OpensClosed(t: seq<CycleEvent>)
  {
    forall i :: 0 <= i < |t| && t[i].OpenPage? ==>
      i + 2 < |t| && t[i + 1].Checked? && t[i + 1].symbol == t[i].symbol && t[i + 2] == ClosePage(t[i].symbol)
  }

  lemma OpenClosedPrefix(symbol: string, effects: seq<Effect>, rest: seq<CycleEvent>)
    requires OpensClosed(rest)
    ensures OpensClosed(SymbolEvents(symbol, effects) + rest)
  {
    var t := SymbolEvents(symbol, effects) + rest;
    forall i | 0 <= i < |t| && t[i].OpenPage?
      ensures i + 2 < |t| && t[i + 1].Checked? && t[i + 1].symbol == t[i].symbol && t[i + 2] == ClosePage(t[i].symbol)
    {
      if i >= 4 {
        assert t[i] == rest[i - 4];
        assert t[i + 1] == rest[i - 3] && t[i + 2] == rest[i - 2];
      }
    }
  }

  /** When every page opens the whole list is checked, whatever the fetches
      do; with no symbols nothing happens at all. */
  lemma AllPagesOpenCompletes(prices: Snapshot, symbols: seq<string>, inputs: seq<SymbolInput>)
    requires WellFormed(symbols, inputs)
    requires forall i :: 0 <= i < |inputs| ==> inputs[i].pageOpens
    ensures !Cycle(prices, symbols, inputs).aborted
    ensures CheckedSymbols(Cycle(prices, symbols, inputs).trace) == symbols
    ensures Seqs.Count(Cycle(prices, symbols, inputs).trace, IsPause) == |symbols|
    ensures |symbols| == 0 ==> Cycle(prices, symbols, inputs).trace == []
  {
    CycleAborts(prices, symbols, inputs);
    CycleOrder(prices, symbols, inputs);
    CycleCounts(prices, symbols, inputs);
    assert symbols[..|symbols|] == symbols;
  }

  /** A record, once present, is never removed by a cycle. */
  lemma {:induction false} CycleKeepsRecords(prices: Snapshot, symbols: seq<string>, inputs: seq<SymbolInput>)
    requires WellFormed(symbols, inputs)
    ensures prices.Keys <= Cycle(prices, symbols, inputs).prices.Keys
    decreases |symbols|
  {
    if |symbols| > 0 && inputs[0].pageOpens {
      var c := Check(prices, symbols[0], inputs[0].outcomes, inputs[0].now);
      CycleKeepsRecords(c.prices, symbols[1..], inputs[1..]);
    }
  }

  /** The `for` loop of `checkAll`. */
  method RunCycle(prices: Snapshot, symbols: seq<string>, inputs: seq<SymbolInput>) returns (r: CycleResult)
    requires WellFormed(symbols, inputs)
    ensures r == Cycle(prices, symbols, inputs)
  {
    var p := prices;
    var trace: seq<CycleEvent> := [];
    var i := 0;
    assert symbols[0..] == symbols && inputs[0..] == inputs;
    while i < |symbols|
      invariant 0 <= i <= |symbols|
      invariant Resumes(prices, symbols, inputs, i, p, trace)
    {
      var s := symbols[i];
      if !inputs[i].pageOpens {
        ResumeBlocked(prices, symbols, inputs, i, p, trace);
        trace := trace + [OpenFailed(s)];
        return CycleResult(p, trace, true);
      }
      var c := Check(p, s, inputs[i].outcomes, inputs[i].now);
      ResumeStep(prices, symbols, inputs, i, p, trace);
      trace := trace + SymbolEvents(s, c.effects);
      p := c.prices;
      i := i + 1;
    }
    assert symbols[i..] == [];
    r := CycleResult(p, trace, false);
  }

  /** After `trace` and with `p` as the current prices, the rest of the
      list from `i` on completes the cycle. */
  predicate Resumes(prices: Snapshot, symbols: seq<string>, inputs: seq<SymbolInput>, i: nat, p: Snapshot, trace: seq<CycleEvent>)
    requires WellFormed(symbols, inputs) && i <= |symbols|
  {
    var rest := Cycle(p, symbols[i..], inputs[i..]);
    Cycle(prices, symbols, inputs) == CycleResult(rest.prices, trace + rest.trace, rest.aborted)
  }

  /** The loop body when the page at `i` opens. */
  lemma ResumeStep(prices: Snapshot, symbols: seq<string>, inputs: seq<SymbolInput>, i: nat, p: Snapshot, trace: seq<CycleEvent>)
    requires WellFormed(symbols, inputs) && i < |symbols| && inputs[i].pageOpens
    requires Resumes(prices, symbols, inputs, i, p, trace)
    ensures var c := Check(p, symbols[i], inputs[i].outcomes, inputs[i].now);
      Resumes(prices, symbols, inputs, i + 1, c.prices, trace + SymbolEvents(symbols[i], c.effects))
  {
    var c := Check(p, symbols[i], inputs[i].outcomes, inputs[i].now);
    CycleUnfold(p, symbols, inputs, i);
    ResumeAfter(prices, symbols, inputs, i, p, trace, c.prices, SymbolEvents(symbols[i], c.effects));
  }

  /** Once the step at `i` is known to emit `head` and leave `q`, the cycle
      resumes at `i + 1` from `q` after `trace + head`. */
  lemma ResumeAfter(prices: Snapshot, symbols: seq<string>, inputs: seq<SymbolInput>, i: nat, p: Snapshot, trace: seq<CycleEvent>, q: Snapshot, head: seq<CycleEvent>)
    requires WellFormed(symbols, inputs) && i < |symbols|
    requires Resumes(prices, symbols, inputs, i, p, trace)
    requires var rest := Cycle(q, symbols[i + 1..], inputs[i + 1..]);
      Cycle(p, symbols[i..], inputs[i..]) == CycleResult(rest.prices, head + rest.trace, rest.aborted)
    ensures Resumes(prices, symbols, inputs, i + 1, q, trace + head)
  {
    var rest := Cycle(q, symbols[i + 1..], inputs[i + 1..]);
    var whole := Cycle(prices, symbols, inputs);
    var here := Cycle(p, symbols[i..], inputs[i..]);
    Regroup(whole, here, rest, trace, head);
  }

  /** Prepending `trace` to a result that starts with `head` is prepending
      `trace + head` to the rest. */
  lemma Regroup(whole: CycleResult, here: CycleResult, rest: CycleResult, trace: seq<CycleEvent>, head: seq<CycleEvent>)
    requires whole == CycleResult(here.prices, trace + here.trace, here.aborted)
    requires here == CycleResult(rest.prices, head + rest.trace, rest.aborted)
    ensures whole == CycleResult(rest.prices, (trace + head) + rest.trace, rest.aborted)
  {
    assert trace + (head + rest.trace) == (trace + head) + rest.trace;
  }

  /** The loop body when the page at `i` fails to open. */
  lemma ResumeBlocked(prices: Snapshot, symbols: seq<string>, inputs: seq<SymbolInput>, i: nat, p: Snapshot, trace: seq<CycleEvent>)
    requires WellFormed(symbols, inputs) && i < |symbols| && !inputs[i].pageOpens
    requires Resumes(prices, symbols, inputs, i, p, trace)
    ensures Cycle(prices, symbols, inputs) == CycleResult(p, trace + [OpenFailed(symbols[i])], true)
  {
    CycleBlocked(p, symbols[i..], inputs[i..]);
  }

  /** `Cycle` from position `i` on, when the page at `i` opens. */
  lemma CycleUnfold(prices: Snapshot, symbols: seq<string>, inputs: seq<SymbolInput>, i: nat)
    requires WellFormed(symbols, inputs) && i < |symbols| && inputs[i].pageOpens
    ensures var c := Check(prices, symbols[i], inputs[i].outcomes, inputs[i].now);
      var rest := Cycle(c.prices, symbols[i + 1..], inputs[i + 1..]);
      Cycle(prices, symbols[i..], inputs[i..])
        == CycleResult(rest.prices, SymbolEvents(symbols[i], c.effects) + rest.trace, rest.aborted)
  {
    assert symbols[i..][1..] == symbols[i + 1..] && inputs[i..][1..] == inputs[i + 1..];
  }

  /** `Cycle` on a list whose first page fails to open. */
  lemma CycleBlocked(prices: Snapshot, symbols: seq<string>, inputs: seq<SymbolInput>)
    requires WellFormed(symbols, inputs) && |symbols| > 0 && !inputs[0].pageOpens
    ensures Cycle(prices, symbols, inputs) == CycleResult(prices, [OpenFailed(symbols[0])], true)
  {
  }
}

=== FILE: price_page.dfy ===
/** The decision logic of the price scraper (Functions/fetchPricePuppeteer.js):
    choose the daily table, pick the "Cena" row, and turn the European price
    text into a number. The page itself (navigation, waiting for selectors,
    `innerText`) is an input: a sequence of tables, each a sequence of rows of
    header and data cells, in document order. */
module PricePage {
  import opened Wrappers
  import opened Ascii
  import opened Domain
  import Seqs

  const UrlPrefix: string := "https://www.belex.rs/trgovanje/hartija/dnevni/"

  /** The quote page of `symbol`. */
  function PriceUrl(symbol: string): (u: string)
    ensures |u| == |UrlPrefix| + |symbol|
    ensures u[..|UrlPrefix|] == UrlPrefix && u[|UrlPrefix|..] == symbol
  {
    UrlPrefix + symbol
  }

  /** A cell with its `innerText` (`''` when the text is missing). */
  datatype Cell = Th(text: string) | Td(text: string)

  type Row = seq<Cell>

  type Table = seq<Row>

  /** What navigation produced: the `table.tdata` elements of the loaded
      page, or the failure of `goto` / `waitForSelector`. */
  datatype PageLoad = Loaded(tables: seq<Table>) | LoadFailed(detail: string)

  function HeaderTexts(row: Row): (r: seq<string>)
    ensures |r| <= |row|
  {
    if |row| == 0 then []
    else (if row[0].Th? then [row[0].text] else []) + HeaderTexts(row[1..])
  }

  function DataTexts(row: Row): (r: seq<string>)
    ensures |r| <= |row|
  {
    if |row| == 0 then []
    else (if row[0].Td? then [row[0].text] else []) + DataTexts(row[1..])
  }

  /** `table.querySelector('tr th')`: the first header cell of any row. */
  function FirstHeader(table: Table): Option<string>
  {
    if |table| == 0 then None
    else
      var hs := HeaderTexts(table[0]);
      if |hs| > 0 then Some(hs[0]) else FirstHeader(table[1..])
  }

  /** The first header cell exists and mentions "dnevni" in any case. */
  predicate IsDailyTable(table: Table)
  {
    match FirstHeader(table)
    case None => false
    case Some(h) => MatchesIgnoringCase(h, "dnevni")
  }

  /** The price a row offers: at least two data cells and a first data cell
      that trims to "Cena"; the price is the trimmed second data cell. */
  function RowPrice(row: Row): (r: Option<string>)
    ensures r.Some? ==> |DataTexts(row)| >= 2 && Trim(DataTexts(row)[0]) == "Cena"
    ensures r.Some? ==> r.value == Trim(DataTexts(row)[1])
    ensures r.None? ==> |DataTexts(row)| < 2 || Trim(DataTexts(row)[0]) != "Cena"
  {
    var tds := DataTexts(row);
    if |tds| >= 2 && Trim(tds[0]) == "Cena" then Some(Trim(tds[1])) else None
  }

  predicate HasPrice(row: Row) { RowPrice(row).Some? }

  /** The text the page evaluation returns: from the first daily table, the
      first row with a price; `null` when either is missing. */
  function PriceText(tables: seq<Table>): Option<string>
  {
    var ti := Seqs.FirstIndex(tables, IsDailyTable);
    if ti == |tables| then None
    else
      var rows := tables[ti];
      var ri := Seqs.FirstIndex(rows, HasPrice);
      if ri == |rows| then None else RowPrice(rows[ri])
  }

  /** `ti` is the first daily table. */
  ghost predicate FirstDaily(tables: seq<Table>, ti: int)
  {
    0 <= ti < |tables| && IsDailyTable(tables[ti]) && forall j :: 0 <= j < ti ==> !IsDailyTable(tables[j])
  }

  /** The chosen price: the first price row of the first daily table. */
  lemma PriceTextChosen(tables: seq<Table>, ti: int, ri: int)
    requires FirstDaily(tables, ti)
    requires 0 <= ri < |tables[ti]| && HasPrice(tables[ti][ri])
    requires forall k :: 0 <= k < ri ==> !HasPrice(tables[ti][k])
    ensures PriceText(tables) == RowPrice(tables[ti][ri])
  {
    var ti' := Seqs.FirstIndex(tables, IsDailyTable);
    assert ti' == ti;
    var ri' := Seqs.FirstIndex(tables[ti], HasPrice);
    assert ri' == ri;
  }

  /** No text is found exactly when there is no daily table or the first
      daily table has no price row; a later daily table is never consulted. */
  lemma PriceTextMissing(tables: seq<Table>)
    ensures PriceText(tables) == None <==>
      (forall j :: 0 <= j < |tables| ==> !IsDailyTable(tables[j]))
      || (forall ti, k :: FirstDaily(tables, ti) && 0 <= k < |tables[ti]| ==> !HasPrice(tables[ti][k]))
  {
    var ti := Seqs.FirstIndex(tables, IsDailyTable);
    if ti < |tables| {
      assert FirstDaily(tables, ti);
      forall ti2 | FirstDaily(tables, ti2)
        ensures ti2 == ti
      {
      }
    }
  }

  /** Every `.` removed (`replace(/\./g, '')`). */
  function RemoveDots(s: string): (r: string)
    ensures '.' !in r
    ensures forall c :: c in r ==> c in s
    ensures '.' !in s ==> r == s
  {
    var r := Seqs.Filter(s, c => c != '.');
    assert '.' !in s ==> r == s by {
      if '.' !in s {
        FilterKeepsAll(s);
      }
    }
    r
  }

  lemma FilterKeepsAll(s: string)
    requires '.' !in s
    ensures Seqs.Filter(s, c => c != '.') == s
  {
    if |s| > 0 {
      FilterKeepsAll(s[1..]);
      assert s == [s[0]] + s[1..];
    }
  }

  lemma RemoveDotsAppend(a: string, b: string)
    ensures RemoveDots(a + b) == RemoveDots(a) + RemoveDots(b)
  {
    Seqs.FilterAppend(a, b, c => c != '.');
  }

  /** Only the first occurrence of `a` becomes `b` (`replace(',', '.')`). */
  function ReplaceFirst(s: string, a: char, b: char): (r: string)
    ensures |r| == |s|
  {
    if |s| == 0 then []
    else if s[0] == a then [b] + s[1..]
    else [s[0]] + ReplaceFirst(s[1..], a, b)
  }

  /** Exactly the first occurrence of `a` is replaced; a text without `a`
      is unchanged. */
  lemma {:induction false} ReplaceFirstSpec(s: string, a: char, b: char, i: int)
    requires 0 <= i < |s|
    ensures ReplaceFirst(s, a, b)[i] == (if i == Seqs.FirstIndex(s, c => c == a) then b else s[i])
  {
    if s[0] != a && i > 0 {
      ReplaceFirstSpec(s[1..], a, b, i - 1);
    }
  }

  /** European number text to JavaScript number text: thousands
      separators `.` dropped, then the first decimal comma made a point. */
  function Normalize(text: string): string
  {
    ReplaceFirst(RemoveDots(text), ',', '.')
  }

  lemma {:induction false} ReplaceFirstAfterClean(a: string, t: string, x: char, y: char)
    requires x !in a
    ensures ReplaceFirst(a + [x] + t, x, y) == a + [y] + t
  {
    if |a| > 0 {
      assert (a + [x] + t)[1..] == a[1..] + [x] + t;
      ReplaceFirstAfterClean(a[1..], t, x, y);
      assert [a[0]] + (a[1..] + [y] + t) == a + [y] + t;
    }
  }

  /** On a well-formed European price, normalisation keeps the integer digits
      without their group separators and turns the decimal comma into a point:
      "1.234,56" becomes "1234.56". */
  lemma NormalizeEuropean(whole: string, frac: string)
    requires ',' !in whole && ',' !in frac && '.' !in frac
    ensures Normalize(whole + "," + frac) == RemoveDots(whole) + "." + frac
  {
    RemoveDotsAppend(whole, "," + frac);
    RemoveDotsAppend(",", frac);
    assert RemoveDots(",") == ",";
    assert RemoveDots(whole + "," + frac) == RemoveDots(whole) + [','] + frac by {
      assert whole + "," + frac == whole + ("," + frac);
    }
    ReplaceFirstAfterClean(RemoveDots(whole), frac, ',', '.');
  }

  predicate AllDigits(s: string)
  {
    forall i :: 0 <= i < |s| ==> IsDigit(s[i])
  }

  /** Length of the run of decimal digits that starts `s`. */
  function DigitRun(s: string): (n: nat)
    ensures n <= |s| && AllDigits(s[..n])
    ensures n < |s| ==> !IsDigit(s[n])
  {
    if |s| > 0 && IsDigit(s[0]) then 1 + DigitRun(s[1..]) else 0
  }

  function DigitsValue(d: string): nat
    requires AllDigits(d)
  {
    if |d| == 0 then 0 else 10 * DigitsValue(d[..|d| - 1]) + (d[|d| - 1] as int - '0' as int)
  }

  function Pow10(n: nat): (p: nat)
    ensures p >= 1
  {
    if n == 0 then 1 else 10 * Pow10(n - 1)
  }

  /** The decimal value of integer digits `ip` and fraction digits `fp`. */
  function DecimalValue(ip: string, fp: string): real
    requires AllDigits(ip) && AllDigits(fp)
  {
    DigitsValue(ip) as real + DigitsValue(fp) as real / Pow10(|fp|) as real
  }

  /** `parseFloat`: leading white space, an optional sign, then the longest
      prefix of the form digits[.digits]; `None` stands for `NaN`. */
  function ParseFloat(s: string): (r: Option<real>)
  {
    var t := TrimStart(s);
    var neg := |t| > 0 && t[0] == '-';
    var u := if |t| > 0 && (t[0] == '-' || t[0] == '+') then t[1..] else t;
    var n := DigitRun(u);
    var ip := u[..n];
    var rest := u[n..];
    var fp := if |rest| > 0 && rest[0] == '.' then rest[1..][..DigitRun(rest[1..])] else "";
    if n == 0 && |fp| == 0 then None
    else
      var v := DecimalValue(ip, fp);
      Some(if neg then -v else v)
  }

  lemma {:induction false} DigitRunPrefix(d: string, t: string)
    requires AllDigits(d)
    requires |t| == 0 || !IsDigit(t[0])
    ensures DigitRun(d + t) == |d|
    decreases |d|
  {
    if |d| > 0 {
      var s := d + t;
      assert s[0] == d[0] && IsDigit(d[0]);
      assert s[1..] == d[1..] + t;
      assert AllDigits(d[1..]) by {
        assert forall i :: 0 <= i < |d| - 1 ==> d[1..][i] == d[i + 1];
      }
      DigitRunPrefix(d[1..], t);
      assert DigitRun(s) == 1 + DigitRun(s[1..]);
    } else {
      assert d + t == t;
    }
  }

  /** `parseFloat` reads "digits.digits" as the decimal number it denotes. */
  lemma ParseFloatDecimal(ip: string, fp: string)
    requires |ip| > 0 && AllDigits(ip) && AllDigits(fp)
    ensures ParseFloat(ip + "." + fp) == Some(DecimalValue(ip, fp))
  {
    DecimalPieces(ip, fp);
  }

  /** How `ParseFloat` cuts "digits.digits" into its two digit runs. */
  lemma DecimalPieces(ip: string, fp: string)
    requires |ip| > 0 && AllDigits(ip) && AllDigits(fp)
    ensures var s := ip + "." + fp;
      && TrimStart(s) == s && s[0] != '-' && s[0] != '+'
      && DigitRun(s) == |ip| && s[..|ip|] == ip
      && |s[|ip|..]| > 0 && s[|ip|..][0] == '.' && s[|ip|..][1..] == fp
      && DigitRun(fp) == |fp| && fp[..|fp|] == fp
  {
    DecimalHead(ip, "." + fp);
    DigitRunPrefix(ip, "." + fp);
    assert ip + "." + fp == ip + ("." + fp);
    DecimalTail(fp);
  }

  lemma DecimalHead(ip: string, t: string)
    requires |ip| > 0 && IsDigit(ip[0])
    ensures var s := ip + t;
      TrimStart(s) == s && s[0] != '-' && s[0] != '+' && s[..|ip|] == ip && s[|ip|..] == t
  {
    assert (ip + t)[0] == ip[0];
  }

  lemma DecimalTail(fp: string)
    requires AllDigits(fp)
    ensures var t := "." + fp; t[0] == '.' && t[1..] == fp
    ensures DigitRun(fp) == |fp| && fp[..|fp|] == fp
  {
    DigitRunPrefix(fp, "");
    assert fp + "" == fp;
  }

  /** Lines 28-32: an empty or missing text is "price not found", a text
      that does not parse is "unparsable", otherwise the parsed number. */
  function PriceFromText(symbol: string, text: Option<string>): (r: Result<real, FetchError>)
    ensures (text.None? || text == Some("")) ==> r == Err(PriceNotFound(symbol))
    ensures text.Some? && text.value != "" && ParseFloat(Normalize(text.value)).None?
      ==> r == Err(Unparsable(symbol, text.value))
    ensures r.Ok? ==> text.Some? && ParseFloat(Normalize(text.value)) == Some(r.value)
    ensures text.Some? && text.value != "" && ParseFloat(Normalize(text.value)).Some?
      ==> r == Ok(ParseFloat(Normalize(text.value)).value)
  {
    if text.None? || text.value == "" then Err(PriceNotFound(symbol))
    else
      match ParseFloat(Normalize(text.value))
      case None => Err(Unparsable(symbol, text.value))
      case Some(x) => Ok(x)
  }

  /** `fetchPricePuppeteer(page, symbol)`: a navigation failure is
      reported as such; a loaded page without a daily price is "not found";
      a non-empty chosen text gives its parse, or "unparsable" when it has
      none. */
  function FetchPrice(page: PageLoad, symbol: string): (r: Result<real, FetchError>)
    ensures page.LoadFailed? <==> r.Err? && r.error.Navigation?
    ensures page.LoadFailed? ==> r.error == Navigation(page.detail)
    ensures page.Loaded? && (PriceText(page.tables).None? || PriceText(page.tables) == Some(""))
      ==> r == Err(PriceNotFound(symbol))
    ensures r.Ok? ==> page.Loaded? && PriceText(page.tables).Some?
                      && ParseFloat(Normalize(PriceText(page.tables).value)) == Some(r.value)
    ensures page.Loaded? && PriceText(page.tables).Some? && PriceText(page.tables).value != "" ==>
      var t := PriceText(page.tables).value;
      r == match ParseFloat(Normalize(t))
           case Some(x) => Ok(x)
           case None => Err(Unparsable(symbol, t))
  {
    match page
    case LoadFailed(d) => Err(Navigation(d))
    case Loaded(tables) => PriceFromText(symbol, PriceText(tables))
  }

  lemma RemoveDotsExample()
    ensures RemoveDots("1.234") == "1234"
  {
    var a, b := "1", "234";
    assert "1.234" == a + ("." + b);
    RemoveDotsAppend(a, "." + b);
    RemoveDotsAppend(".", b);
    RemoveDotsPieces(a, b);
  }

  lemma RemoveDotsPieces(a: string, b: string)
    requires a == "1" && b == "234"
    ensures RemoveDots(a) == a && RemoveDots(b) == b && RemoveDots(".") == ""
  {
    assert '.' !in a && '.' !in b;
  }

  lemma DigitsValueExample()
    ensures AllDigits("1234") && DigitsValue("1234") == 1234
    ensures AllDigits("56") && DigitsValue("56") == 56
  {
    assert "1234"[..3] == "123";
    assert "123"[..2] == "12";
    assert "12"[..1] == "1";
    assert "1"[..0] == "";
    assert "56"[..1] == "5";
    assert "5"[..0] == "";
  }

  /** A European price with dot-grouped thousands and a decimal comma is
      read as the decimal number it denotes. */
  lemma EuropeanPriceRead(symbol: string, whole: string, frac: string)
    requires ',' !in whole && '.' !in frac
    requires |RemoveDots(whole)| > 0 && AllDigits(RemoveDots(whole)) && AllDigits(frac)
    ensures PriceFromText(symbol, Some(whole + "," + frac)) == Ok(DecimalValue(RemoveDots(whole), frac))
  {
    assert ',' !in frac by {
      assert forall i :: 0 <= i < |frac| ==> IsDigit(frac[i]);
    }
    NormalizeEuropean(whole, frac);
    ParseFloatDecimal(RemoveDots(whole), frac);
  }

  /** The example from the quote page: "1.234,56" gives 1234.56. */
  lemma EuropeanPriceExample(symbol: string, whole: string, frac: string)
    requires whole == "1.234" && frac == "56"
    ensures PriceFromText(symbol, Some(whole + "," + frac)) == Ok(1234.56)
  {
    RemoveDotsExample();
    DigitsValueExample();
    EuropeanPriceRead(symbol, whole, frac);
    DecimalValueExample(RemoveDots(whole), frac);
  }

  lemma DecimalValueExample(ip: string, fp: string)
    requires ip == "1234" && fp == "56"
    ensures AllDigits(ip) && AllDigits(fp) && DecimalValue(ip, fp) == 1234.56
  {
    DigitsValueExample();
    assert Pow10(|fp|) == 100;
  }

  /** End to end: a loaded page whose first daily table's first "Cena" row
      shows a well-formed European price yields that price. */
  lemma FetchDailyPrice(symbol: string, tables: seq<Table>, ti: int, ri: int, whole: string, frac: string)
    requires FirstDaily(tables, ti)
    requires 0 <= ri < |tables[ti]| && HasPrice(tables[ti][ri])
    requires forall k :: 0 <= k < ri ==> !HasPrice(tables[ti][k])
    requires RowPrice(tables[ti][ri]) == Some(whole + "," + frac)
    requires ',' !in whole && '.' !in frac
    requires |RemoveDots(whole)| > 0 && AllDigits(RemoveDots(whole)) && AllDigits(frac)
    ensures FetchPrice(Loaded(tables), symbol) == Ok(DecimalValue(RemoveDots(whole), frac))
  {
    PriceTextChosen(tables, ti, ri);
    EuropeanPriceRead(symbol, whole, frac);
  }

  /** A page with no daily table, or whose first daily table has no "Cena"
      row, is "price not found", whatever later tables hold. */
  lemma FetchNoDailyPrice(symbol: string, tables: seq<Table>)
    requires (forall j :: 0 <= j < |tables| ==> !IsDailyTable(tables[j]))
      || (forall ti, k :: FirstDaily(tables, ti) && 0 <= k < |tables[ti]| ==> !HasPrice(tables[ti][k]))
    ensures FetchPrice(Loaded(tables), symbol) == Err(PriceNotFound(symbol))
  {
    PriceTextMissing(tables);
  }
}

=== FILE: recipients.dfy ===
/** The recipient-list parsing shared by the host (server.js lines 36-37)
    and the alert sender (Functions/sendAlertEmail.js line 14):
    `(raw || '').split(',').map(s => s.trim()).filter(Boolean)`. */
module Recipients {
  import opened Ascii
  import Seqs

  /** `String.prototype.split` on a one-character separator: always at
      least one piece, and the pieces never contain the separator. */
  function Split(s: string, sep: char): (r: seq<string>)
    ensures |r| >= 1
    ensures forall i :: 0 <= i < |r| ==> sep !in r[i]
    decreases |s|
  {
    if |s| == 0 then [""]
    else
      var rest := Split(s[1..], sep);
      if s[0] == sep then [""] + rest
      else [[s[0]] + rest[0]] + rest[1..]
  }

  /** `Array.prototype.join` with a one-character separator. */
  function Join(xs: seq<string>, sep: char): string
    requires |xs| >= 1
  {
    if |xs| == 1 then xs[0] else xs[0] + [sep] + Join(xs[1..], sep)
  }

  function TrimAll(xs: seq<string>): (r: seq<string>)
    ensures |r| == |xs|
    ensures forall i :: 0 <= i < |xs| ==> r[i] == Trim(xs[i])
  {
    seq(|xs|, i requires 0 <= i < |xs| => Trim(xs[i]))
  }

  predicate NonEmpty(s: string) { |s| > 0 }

  /** An address as the parser leaves it: non-empty, no comma, no white
      space at either end. */
  predicate CleanItem(s: string, sep: char)
  {
    |s| > 0 && sep !in s && !IsSpace(s[0]) && !IsSpace(s[|s| - 1])
  }

  /** Trim every piece and keep the non-empty results, in order. */
  function CleanPieces(pieces: seq<string>, sep: char): (r: seq<string>)
    requires forall i :: 0 <= i < |pieces| ==> sep !in pieces[i]
    ensures |r| <= |pieces|
    ensures forall i :: 0 <= i < |r| ==> CleanItem(r[i], sep)
  {
    if |pieces| == 0 then []
    else
      var t := Trim(pieces[0]);
      TrimIsInfix(pieces[0]);
      if t != "" then [t] + CleanPieces(pieces[1..], sep) else CleanPieces(pieces[1..], sep)
  }

  /** The comma-separated list parser. */
  function ParseList(raw: string): (r: seq<string>)
    ensures forall i :: 0 <= i < |r| ==> CleanItem(r[i], ',')
  {
    CleanPieces(Split(raw, ','), ',')
  }

  /** The recipient list read from the environment: `ALERT_TO`, falling back
      to `EMAIL_USER` when the former is empty or unset. */
  function RecipientsFromEnv(alertTo: string, emailUser: string): (r: seq<string>)
    ensures alertTo != "" ==> r == ParseList(alertTo)
    ensures alertTo == "" ==> r == ParseList(emailUser)
  {
    ParseList(if alertTo != "" then alertTo else emailUser)
  }

  lemma {:induction false} SplitNoSep(a: string, t: string, sep: char)
    requires sep !in a
    ensures Split(a + t, sep) == [a + Split(t, sep)[0]] + Split(t, sep)[1..]
    decreases |a|
  {
    if |a| > 0 {
      assert (a + t)[1..] == a[1..] + t;
      SplitNoSep(a[1..], t, sep);
      assert [a[0]] + (a[1..] + Split(t, sep)[0]) == a + Split(t, sep)[0];
    } else {
      var r := Split(t, sep);
      assert a + t == t;
      assert a + r[0] == r[0];
      assert [r[0]] + r[1..] == r;
    }
  }

  /** Splitting undoes joining when no piece holds the separator. */
  lemma {:induction false} SplitJoin(xs: seq<string>, sep: char)
    requires |xs| >= 1
    requires forall i :: 0 <= i < |xs| ==> sep !in xs[i]
    ensures Split(Join(xs, sep), sep) == xs
    decreases |xs|
  {
    if |xs| == 1 {
      SplitNoSep(xs[0], "", sep);
      assert xs[0] + "" == xs[0];
    } else {
      var t := Join(xs[1..], sep);
      SplitJoin(xs[1..], sep);
      assert xs[0] + [sep] + t == xs[0] + ([sep] + t);
      SplitNoSep(xs[0], [sep] + t, sep);
      assert ([sep] + t)[1..] == t;
      assert Split([sep] + t, sep) == [""] + Split(t, sep);
      assert xs[0] + "" == xs[0];
      assert xs == [xs[0]] + xs[1..];
    }
  }

  /** Joining undoes splitting: no character of the raw text is lost. */
  lemma {:induction false} JoinSplit(s: string, sep: char)
    ensures Join(Split(s, sep), sep) == s
    decreases |s|
  {
    if |s| > 0 {
      var rest := Split(s[1..], sep);
      JoinSplit(s[1..], sep);
      if s[0] == sep {
        assert Split(s, sep) == [""] + rest;
        assert ([""] + rest)[1..] == rest;
        assert s == [sep] + s[1..];
      } else {
        JoinHead(s[0], rest, sep);
        assert s == [s[0]] + s[1..];
      }
    }
  }

  lemma JoinHead(c: char, xs: seq<string>, sep: char)
    requires |xs| >= 1
    ensures Join([[c] + xs[0]] + xs[1..], sep) == [c] + Join(xs, sep)
  {
    var ys := [[c] + xs[0]] + xs[1..];
    assert ys[1..] == xs[1..];
  }

  /** `CleanPieces` is `map(trim)` followed by `filter(Boolean)`. */
  lemma {:induction false} CleanPiecesIsTrimFilter(pieces: seq<string>, sep: char)
    requires forall i :: 0 <= i < |pieces| ==> sep !in pieces[i]
    ensures CleanPieces(pieces, sep) == Seqs.Filter(TrimAll(pieces), NonEmpty)
  {
    if |pieces| > 0 {
      CleanPiecesIsTrimFilter(pieces[1..], sep);
      assert TrimAll(pieces)[1..] == TrimAll(pieces[1..]);
    }
  }

  /** The parser is the host's `split(',').map(trim).filter(Boolean)`:
      every entry in order, trimmed, with the empty ones dropped. */
  lemma ParseListIsSplitTrimFilter(raw: string)
    ensures ParseList(raw) == Seqs.Filter(TrimAll(Split(raw, ',')), NonEmpty)
  {
    CleanPiecesIsTrimFilter(Split(raw, ','), ',');
  }

  lemma CleanPiecesKeepsClean(xs: seq<string>, sep: char)
    requires forall i :: 0 <= i < |xs| ==> sep !in xs[i]
    requires forall i :: 0 <= i < |xs| ==> CleanItem(xs[i], sep)
    ensures CleanPieces(xs, sep) == xs
  {
    if |xs| > 0 {
      var x, rest := xs[0], xs[1..];
      assert CleanItem(x, sep);
      TrimUnchanged(x);
      assert forall i :: 0 <= i < |rest| ==> rest[i] == xs[i + 1];
      CleanPiecesKeepsClean(rest, sep);
      assert xs == [x] + rest;
    }
  }

  /** Round trip: a list of clean addresses written comma-separated parses
      back to the same list, in the same order. */
  lemma ParseJoinRoundTrip(items: seq<string>)
    requires |items| >= 1
    requires forall i :: 0 <= i < |items| ==> CleanItem(items[i], ',')
    ensures ParseList(Join(items, ',')) == items
  {
    SplitJoin(items, ',');
    CleanPiecesKeepsClean(items, ',');
  }

  /** Empty and blank entries disappear: ", ,a" parses to just "a". */
  lemma BlankEntriesDropped()
    ensures ParseList(", ,a") == ["a"]
  {
    SplitExample();
    CleanExample();
  }

  lemma SplitExample()
    ensures Split(", ,a", ',') == ["", " ", "a"]
  {
    assert Split("", ',') == [""];
    assert "a"[1..] == "";
    assert ['a'] + "" == "a";
    assert [""][1..] == [];
    assert Split("a", ',') == ["a"];
    assert ",a"[1..] == "a";
    assert Split(",a", ',') == ["", "a"];
    assert " ,a"[1..] == ",a";
    assert [' '] + "" == " ";
    assert ["", "a"][1..] == ["a"];
    assert Split(" ,a", ',') == [" ", "a"];
    assert ", ,a"[1..] == " ,a";
  }

  lemma CleanExample()
    ensures CleanPieces(["", " ", "a"], ',') == ["a"]
  {
    TrimAllSpace("");
    TrimAllSpace(" ");
    TrimUnchanged("a");
    var p: seq<string> := ["", " ", "a"];
    var q: seq<string> := [" ", "a"];
    var r: seq<string> := ["a"];
    assert p[1..] == q && q[1..] == r && r[1..] == [];
    assert CleanPieces(r, ',') == ["a"];
    assert CleanPieces(q, ',') == ["a"];
  }
}

=== FILE: reply_gate.dfy ===
/** The auto-reply (Functions/replyWithPrice.js): a per-recipient cooldown,
    a cached price looked up on disk first and in memory second, and one of
    two mails ("no data" or the price). The cooldown timestamp is written
    only after a successful send; every failure ends in `false`. */
module ReplyGate {
  import opened Wrappers
  import opened Domain

  /** The `last` field of a record in the file the reply reads: absent
      (`undefined`), `null`, or a number. */
  datatype DiskLast = Undefined | Null | Num(value: real)

  /** The reply's view of its database file: unreadable (missing, empty or
      not JSON) or a parsed object of records. This file is the root
      `prices.json`, not the slot the store flushes to. */
  datatype DiskView = Unreadable | Db(entries: map<string, DiskLast>)

  /** The fields of `deps` the reply reads; `""` is an unset string and
      `None` an absent or non-number value. */
  datatype ReplyDeps = ReplyDeps(
    lastReplyAt: map<string, int>,
    cooldown: Option<int>,
    transporter: Option<Transporter>,
    emailUser: string,
    prices: Snapshot)

  /** The two bodies the reply can carry. */
  datatype ReplyBody = NoData(symbol: string) | CachedPrice(symbol: string, price: real)

  datatype ReplyMail = ReplyMail(from: string, to: string, subject: string, body: ReplyBody)

  /** What a call returned, the mail it handed to the transport (if any),
      and the cooldown map afterwards. */
  datatype ReplyResult = ReplyResult(replied: bool, attempted: Option<ReplyMail>, lastReplyAt: map<string, int>)

  /** A non-number cooldown counts as zero. */
  function Cooldown(c: Option<int>): int
  {
    c.GetOr(0)
  }

  /** `lastReplyAt.get(to) || 0`: a recipient never replied to counts as
      replied to at time zero. */
  function LastAt(m: map<string, int>, to: string): (t: int)
    ensures to !in m ==> t == 0
    ensures to in m ==> t == m[to]
  {
    if to in m then m[to] else 0
  }

  predicate InCooldown(deps: ReplyDeps, to: string, now: int)
  {
    now - LastAt(deps.lastReplyAt, to) < Cooldown(deps.cooldown)
  }

  /** The price found in the file: a record whose `last` is a number.
      A `null` or absent `last` yields nothing. */
  function DiskPrice(disk: DiskView, symbol: string): (r: Option<real>)
    ensures r.Some? <==> disk.Db? && symbol in disk.entries && disk.entries[symbol].Num?
    ensures r.Some? ==> r.value == disk.entries[symbol].value
  {
    match disk
    case Unreadable => None
    case Db(entries) =>
      if symbol in entries && entries[symbol].Num? then Some(entries[symbol].value) else None
  }

  /** The price the reply quotes: the file's, else the in-memory record's. */
  function ResolvePrice(disk: DiskView, memory: Snapshot, symbol: string): (r: Option<real>)
    ensures r.None? <==> DiskPrice(disk, symbol).None? && symbol !in memory
  {
    DiskPrice(disk, symbol).OrElse(if symbol in memory then Some(memory[symbol].last) else None)
  }

  /** `Re: ` and the original subject, or `Re: Cena <symbol>` when that is
      empty. */
  function ReplySubject(origSubject: string, symbol: string): (s: string)
    ensures |s| >= 4 && s[..4] == "Re: "
    ensures origSubject != "" ==> s[4..] == origSubject
    ensures origSubject == "" ==> s[4..] == "Cena " + symbol
  {
    "Re: " + OrString(origSubject, "Cena " + symbol)
  }

  /** `replyWithPrice(toEmail, origSubject, symbol, deps)`. `envEmailUser`
      is `process.env.EMAIL_USER`, `disk` the file's contents and `sendOk`
      the transport's answer. */
  function Reply(toEmail: string, origSubject: string, symbol: string, deps: ReplyDeps,
                 envEmailUser: string, disk: DiskView, now: int, sendOk: bool): (r: ReplyResult)
    ensures r.attempted.Some? <==>
      !InCooldown(deps, toEmail, now) && deps.transporter.Some? && OrString(deps.emailUser, envEmailUser) != ""
    ensures r.attempted.Some? ==>
      && r.attempted.value.from == OrString(deps.emailUser, envEmailUser)
      && r.attempted.value.to == toEmail
      && r.attempted.value.subject == ReplySubject(origSubject, symbol)
    ensures r.attempted.Some? ==>
      match ResolvePrice(disk, deps.prices, symbol)
      case None => r.attempted.value.body == NoData(symbol)
      case Some(p) => r.attempted.value.body == CachedPrice(symbol, p)
    ensures r.replied <==> r.attempted.Some? && r.attempted.value.body.CachedPrice? && sendOk
    ensures r.lastReplyAt == if r.attempted.Some? && sendOk then deps.lastReplyAt[toEmail := now] else deps.lastReplyAt
  {
    var m := deps.lastReplyAt;
    if InCooldown(deps, toEmail, now) then ReplyResult(false, None, m)
    else
      var current := ResolvePrice(disk, deps.prices, symbol);
      var user := OrString(deps.emailUser, envEmailUser);
      if deps.transporter.None? || user == "" then ReplyResult(false, None, m)
      else
        var subject := ReplySubject(origSubject, symbol);
        var m' := if sendOk then m[toEmail := now] else m;
        match current
        case None => ReplyResult(false, Some(ReplyMail(user, toEmail, subject, NoData(symbol))), m')
        case Some(p) => ReplyResult(sendOk, Some(ReplyMail(user, toEmail, subject, CachedPrice(symbol, p))), m')
  }

  /** A price in the file is quoted whatever memory holds; memory is
      consulted only when the file has none. */
  lemma DiskHasPriority(disk: DiskView, memory1: Snapshot, memory2: Snapshot, symbol: string)
    ensures DiskPrice(disk, symbol).Some? ==>
      ResolvePrice(disk, memory1, symbol) == ResolvePrice(disk, memory2, symbol) == DiskPrice(disk, symbol)
    ensures DiskPrice(disk, symbol).None? && symbol in memory1 ==>
      ResolvePrice(disk, memory1, symbol) == Some(memory1[symbol].last)
  {
  }

  /** A successful reply at time `t` silences the same recipient until
      `t + cooldown`: the second call sends nothing and changes nothing. */
  lemma CooldownSuppressesRepeat(toEmail: string, subj1: string, subj2: string, symbol: string,
                                 deps: ReplyDeps, envEmailUser: string, disk: DiskView,
                                 t: int, now: int, c: int)
    requires deps.cooldown == Some(c)
    requires now - t < c
    ensures var first := Reply(toEmail, subj1, symbol, deps, envEmailUser, disk, t, true);
      var second := Reply(toEmail, subj2, symbol, deps.(lastReplyAt := first.lastReplyAt), envEmailUser, disk, now, true);
      first.attempted.Some? ==>
        && !second.replied && second.attempted.None? && second.lastReplyAt == first.lastReplyAt
  {
  }

  /** Once the window has passed, a configured sender always attempts a
      reply, with the price when one is known. */
  lemma ReplyAfterWindow(toEmail: string, origSubject: string, symbol: string, deps: ReplyDeps,
                         envEmailUser: string, disk: DiskView, now: int, sendOk: bool)
    requires now - LastAt(deps.lastReplyAt, toEmail) >= Cooldown(deps.cooldown)
    requires deps.transporter.Some? && deps.emailUser != ""
    ensures var r := Reply(toEmail, origSubject, symbol, deps, envEmailUser, disk, now, sendOk);
      && r.attempted.Some?
      && (ResolvePrice(disk, deps.prices, symbol).Some? ==> (r.replied <==> sendOk))
      && (ResolvePrice(disk, deps.prices, symbol).None? ==> !r.replied)
  {
  }

  /** The host never passes a transport, so no reply is ever sent and the
      cooldown map never changes, whatever the price and credentials. */
  lemma ShippedWiringNeverReplies(toEmail: string, origSubject: string, symbol: string, deps: ReplyDeps,
                                  envEmailUser: string, disk: DiskView, now: int, sendOk: bool)
    requires deps.transporter.None?
    ensures var r := Reply(toEmail, origSubject, symbol, deps, envEmailUser, disk, now, sendOk);
      !r.replied && r.attempted.None? && r.lastReplyAt == deps.lastReplyAt
  {
  }

  /** A failed send never records a reply time, in either branch. */
  lemma FailedSendKeepsMap(toEmail: string, origSubject: string, symbol: string, deps: ReplyDeps,
                           envEmailUser: string, disk: DiskView, now: int)
    ensures var r := Reply(toEmail, origSubject, symbol, deps, envEmailUser, disk, now, false);
      !r.replied && r.lastReplyAt == deps.lastReplyAt
  {
  }
}

=== FILE: save_db.dfy ===
/** Write-coalescing persistence (Functions/saveDB.js) as a state machine.
    `saveDB(data)` records the latest data and arms one 50 ms timer when
    none is pending; the timer's callback writes `DB_FILE.tmp`, renames it
    over `DB_FILE`, and clears the pending flag whatever happened. The
    target is the module's own `Functions/prices.json`; the options argument
    callers pass is ignored, so this durable slot is distinct from the root
    `prices.json` that the host loads and the reply path reads. */
module SaveDb {
  import opened Wrappers
  import opened Domain

  /** What is on disk at a path: nothing, a half-written file, or a
      complete serialisation of a snapshot. */
  datatype FileState = Absent | Partial | Holds(data: Snapshot)

  /** Module state plus the two files it touches and the number of armed
      flush timers. */
  datatype Store = Store(
    pending: bool,
    lastData: Option<Snapshot>,
    armed: nat,
    target: FileState,
    temp: FileState)

  /** How the file-system calls of one flush turned out. */
  datatype FlushOutcome = Flushed | WriteFailed | RenameFailed

  datatype StoreEvent = Save(data: Snapshot) | TimerFire(outcome: FlushOutcome)

  /** The state at module load: nothing pending, no timer armed, and
      whatever the file system already holds. */
  function Initial(onDisk: FileState): Store
  {
    Store(false, None, 0, onDisk, Absent)
  }

  /** At most one flush is pending, and a pending flush has data to write. */
  predicate Valid(st: Store)
  {
    st.armed == (if st.pending then 1 else 0) && (st.pending ==> st.lastData.Some?)
  }

  /** `saveDB(data)`: the new state and whether a timer was armed. */
  function SaveData(st: Store, data: Snapshot): (r: (Store, bool))
    ensures r.0.lastData == Some(data)
    ensures r.0.pending
    ensures r.1 <==> !st.pending
    ensures r.0.armed == st.armed + (if r.1 then 1 else 0)
    ensures r.0.target == st.target && r.0.temp == st.temp
    ensures Valid(st) ==> Valid(r.0)
  {
    var st' := st.(lastData := Some(data));
    if st.pending then (st', false)
    else (st'.(pending := true, armed := st.armed + 1), true)
  }

  /** The timer callback. A fire with no armed timer cannot happen and
      leaves the state alone. */
  function Fire(st: Store, outcome: FlushOutcome): (r: Store)
    requires Valid(st)
    ensures Valid(r)
    ensures st.armed > 0 ==> !r.pending && r.armed == st.armed - 1
    ensures r.lastData == st.lastData
    ensures r.target == st.target || (st.pending && r.target == Holds(st.lastData.value))
    ensures r.target != st.target ==> outcome == Flushed
  {
    if st.armed == 0 then st
    else
      var data := st.lastData.value;
      var st' := st.(pending := false, armed := st.armed - 1);
      match outcome
      case Flushed => st'.(target := Holds(data), temp := Absent)
      case WriteFailed => st'.(temp := Partial)
      case RenameFailed => st'.(temp := Holds(data))
  }

  function Step(st: Store, ev: StoreEvent): (r: Store)
    requires Valid(st)
    ensures Valid(r)
  {
    match ev
    case Save(d) => SaveData(st, d).0
    case TimerFire(o) => Fire(st, o)
  }

  function Run(st: Store, evs: seq<StoreEvent>): (r: Store)
    requires Valid(st)
    ensures Valid(r)
    decreases |evs|
  {
    if |evs| == 0 then st else Run(Step(st, evs[0]), evs[1..])
  }

  /** Timers armed by a sequence of saves. */
  function ArmedBy(st: Store, datas: seq<Snapshot>): nat
    decreases |datas|
  {
    if |datas| == 0 then 0
    else
      var (st', scheduled) := SaveData(st, datas[0]);
      (if scheduled then 1 else 0) + ArmedBy(st', datas[1..])
  }

  function SaveAll(st: Store, datas: seq<Snapshot>): (r: Store)
    ensures Valid(st) ==> Valid(r)
    decreases |datas|
  {
    if |datas| == 0 then st else SaveAll(SaveData(st, datas[0]).0, datas[1..])
  }

  /** N saves before the timer fires arm exactly one timer when none was
      pending, remember the Nth data, and touch no file. */
  lemma {:induction false} SavesCoalesce(st: Store, datas: seq<Snapshot>)
    requires |datas| >= 1
    ensures ArmedBy(st, datas) == (if st.pending then 0 else 1)
    ensures SaveAll(st, datas).pending
    ensures SaveAll(st, datas).lastData == Some(datas[|datas| - 1])
    ensures SaveAll(st, datas).armed == st.armed + ArmedBy(st, datas)
    ensures SaveAll(st, datas).target == st.target
    decreases |datas|
  {
    var st' := SaveData(st, datas[0]).0;
    if |datas| > 1 {
      SavesCoalesce(st', datas[1..]);
      assert datas[1..][|datas[1..]| - 1] == datas[|datas| - 1];
    }
  }

  /** N saves followed by a successful flush leave exactly the Nth data on
      disk: intermediate snapshots are never persisted. */
  lemma LastWriteWins(st: Store, datas: seq<Snapshot>)
    requires Valid(st) && !st.pending
    requires |datas| >= 1
    ensures Fire(SaveAll(st, datas), Flushed).target == Holds(datas[|datas| - 1])
    ensures !Fire(SaveAll(st, datas), Flushed).pending
  {
    SavesCoalesce(st, datas);
    assert st.armed == 0;
  }

  /** A failed flush keeps the previous durable file intact, and the next
      save arms a fresh timer (the flag was cleared). */
  lemma FailedFlushKeepsTarget(st: Store, outcome: FlushOutcome, data: Snapshot)
    requires Valid(st) && st.pending
    requires outcome != Flushed
    ensures Fire(st, outcome).target == st.target
    ensures SaveData(Fire(st, outcome), data).1
  {
  }

  /** Along any run the durable file only ever holds a snapshot that was
      saved (or what was there at start): never a partial write. */
  lemma {:induction false} TargetAlwaysComplete(st: Store, evs: seq<StoreEvent>)
    requires Valid(st)
    requires !st.target.Partial?
    ensures !Run(st, evs).target.Partial?
    decreases |evs|
  {
    if |evs| > 0 {
      TargetAlwaysComplete(Step(st, evs[0]), evs[1..]);
    }
  }

  /** From module load, saves followed by a successful flush leave the
      last snapshot on disk, and no run ever leaves a partial file behind
      when there was none at load. */
  lemma FromModuleLoad(onDisk: FileState, datas: seq<Snapshot>, evs: seq<StoreEvent>)
    requires |datas| >= 1 && !onDisk.Partial?
    ensures Valid(Initial(onDisk))
    ensures Fire(SaveAll(Initial(onDisk), datas), Flushed).target == Holds(datas[|datas| - 1])
    ensures !Run(Initial(onDisk), evs).target.Partial?
  {
    LastWriteWins(Initial(onDisk), datas);
    TargetAlwaysComplete(Initial(onDisk), evs);
  }
}

=== FILE: seqs.dfy ===
/** Generic sequence helpers: first index satisfying a test, counting and
    filtering. Each is defined once and reused by the components. */
module Seqs {

  /** Index of the first element satisfying `p`, or `|xs|` when none does
      (the loop-with-early-return shape of `Array.prototype.find`). */
  function FirstIndex<T>(xs: seq<T>, p: T -> bool): (k: nat)
    ensures k <= |xs|
    ensures k < |xs| ==> p(xs[k])
    ensures forall j :: 0 <= j < k ==> !p(xs[j])
  {
    if |xs| == 0 then 0
    else if p(xs[0]) then 0
    else 1 + FirstIndex(xs[1..], p)
  }

  /** Number of elements satisfying `p`. */
  function Count<T>(xs: seq<T>, p: T -> bool): nat
  {
    if |xs| == 0 then 0
    else (if p(xs[0]) then 1 else 0) + Count(xs[1..], p)
  }

  /** The elements satisfying `p`, in their original order. */
  function Filter<T>(xs: seq<T>, p: T -> bool): (r: seq<T>)
    ensures |r| <= |xs|
    ensures forall i :: 0 <= i < |r| ==> p(r[i])
    ensures forall x :: x in r ==> x in xs
  {
    if |xs| == 0 then []
    else if p(xs[0]) then [xs[0]] + Filter(xs[1..], p)
    else Filter(xs[1..], p)
  }

  lemma CountAppend<T>(a: seq<T>, b: seq<T>, p: T -> bool)
    ensures Count(a + b, p) == Count(a, p) + Count(b, p)
  {
    if |a| == 0 {
      assert a + b == b;
    } else {
      assert (a + b)[1..] == a[1..] + b;
      CountAppend(a[1..], b, p);
    }
  }

  lemma FilterAppend<T>(a: seq<T>, b: seq<T>, p: T -> bool)
    ensures Filter(a + b, p) == Filter(a, p) + Filter(b, p)
  {
    if |a| == 0 {
      assert a + b == b;
    } else {
      assert (a + b)[1..] == a[1..] + b;
      FilterAppend(a[1..], b, p);
    }
  }

  lemma CountOne<T>(x: T, p: T -> bool)
    ensures Count([x], p) == if p(x) then 1 else 0
  {
    assert [x][1..] == [];
  }

  lemma CountTwo<T>(x: T, y: T, p: T -> bool)
    ensures Count([x, y], p) == (if p(x) then 1 else 0) + (if p(y) then 1 else 0)
  {
    assert [x, y][1..] == [y];
    CountOne(y, p);
  }

  /** Counting what a filter keeps. */
  lemma CountIsFilterLength<T>(xs: seq<T>, p: T -> bool)
    ensures Count(xs, p) == |Filter(xs, p)|
  {
    if |xs| > 0 {
      CountIsFilterLength(xs[1..], p);
    }
  }

  lemma CountNone<T>(xs: seq<T>, p: T -> bool)
    requires forall i :: 0 <= i < |xs| ==> !p(xs[i])
    ensures Count(xs, p) == 0
  {
    if |xs| > 0 {
      CountNone(xs[1..], p);
    }
  }
}

=== FILE: server_host.dfy ===
/** The pure parts of the host (server.js): the tolerant start-up load of
    the root `prices.json` and the case-insensitive single-price lookup.
    The recipient list of lines 36-37 is `Recipients.RecipientsFromEnv`. */
module ServerHost {
  import opened Domain
  import opened Ascii

  /** The root database file at start-up. */
  datatype DbFile = Missing | Corrupt | Json(snapshot: Snapshot)

  /** The initial `prices`: the file's snapshot, or `{}` when the file is
      missing or does not parse. */
  function LoadSnapshot(f: DbFile): (r: Snapshot)
    ensures f.Json? ==> r == f.snapshot
    ensures !f.Json? ==> r == map[]
  {
    match f
    case Json(s) => s
    case _ => map[]
  }

  /** Only a file that parses can seed the initial prices: a parsed
      snapshot is taken whole, and a non-empty start comes from one. */
  lemma OnlyParsedFileSeeds(s: Snapshot, f: DbFile)
    ensures LoadSnapshot(Json(s)) == s
    ensures LoadSnapshot(f) != map[] ==> f.Json? && LoadSnapshot(f) == f.snapshot
  {
  }

  /** The body of `GET /api/price/:symbol`. */
  datatype PriceReply = Found(record: PriceRecord) | NoDataYet

  /** The record stored under the upper-cased symbol. */
  function LookupPrice(prices: Snapshot, symbol: string): (r: PriceReply)
    ensures r.Found? <==> Upper(symbol) in prices
    ensures r.Found? ==> r.record == prices[Upper(symbol)]
  {
    var key := Upper(symbol);
    if key in prices then Found(prices[key]) else NoDataYet
  }

  /** The lookup ignores the case of the requested symbol: a record stored
      under an upper-case symbol is found under any spelling of it, and a
      record stored under a key with a lower-case letter is never found. */
  lemma LookupIgnoresCase(prices: Snapshot, a: string, b: string)
    ensures Upper(a) == Upper(b) ==> LookupPrice(prices, a) == LookupPrice(prices, b)
    ensures Upper(a) == a && a in prices ==> LookupPrice(prices, Lower(a)) == Found(prices[a])
    ensures (exists i :: 0 <= i < |a| && IsLower(a[i])) ==> LookupPrice(prices, b) == LookupPrice(prices - {a}, b)
  {
    UpperIdempotent(a);
    if exists i :: 0 <= i < |a| && IsLower(a[i]) {
      var i :| 0 <= i < |a| && IsLower(a[i]);
      LowerKeyUnreachable(prices, a, b, i);
    }
  }

  /** No requested spelling upper-cases to a key holding a lower-case
      letter, so removing that key changes no answer. */
  lemma LowerKeyUnreachable(prices: Snapshot, a: string, b: string, i: nat)
    requires i < |a| && IsLower(a[i])
    ensures Upper(b) != a
    ensures LookupPrice(prices, b) == LookupPrice(prices - {a}, b)
  {
    if i < |b| { assert !IsLower(Upper(b)[i]); }
  }
}

=== FILE: symbol_match.dfy ===
/** Symbol extraction from mail text (Functions/extractSymbolFromText.js):
    the text is upper-cased and each configured symbol, in configured order,
    is tried as the pattern `\bSYMBOL\b` with flag `i`; the first symbol that
    matches is returned in its configured spelling. */
module SymbolMatch {
  import opened Wrappers
  import opened Ascii
  import Seqs
  import Domain

  /** A symbol that can be pasted into a regular expression unchanged and
      whose first and last characters are word characters (so `\b` means
      "not preceded / followed by a word character"). */
  predicate ValidSymbol(s: string)
  {
    |s| > 0 && forall i :: 0 <= i < |s| ==> IsWordChar(s[i])
  }

  predicate ValidSymbols(symbols: seq<string>)
  {
    forall k :: 0 <= k < |symbols| ==> ValidSymbol(symbols[k])
  }

  /** The shipped configuration only holds such symbols, so for it the
      whole-word test below is exactly the regular expression's. */
  lemma ConfiguredSymbolsValid()
    ensures ValidSymbols(Domain.Symbols)
  {
  }

  /** `\bs\b` matches `t` at position `i`, ignoring case. */
  predicate WordAt(t: string, s: string, i: int)
  {
    && OccursAtIgnoringCase(t, s, i)
    && (i == 0 || !IsWordChar(t[i - 1]))
    && (i + |s| == |t| || !IsWordChar(t[i + |s|]))
  }

  /** Specification: `s` occurs in `t` as a whole word. */
  ghost predicate ContainsWord(t: string, s: string)
  {
    exists i :: WordAt(t, s, i)
  }

  /** Executable scan for a whole-word occurrence at `i` or later. */
  predicate WordFrom(t: string, s: string, i: nat)
    decreases |t| - i
  {
    i + |s| <= |t| && (WordAt(t, s, i) || WordFrom(t, s, i + 1))
  }

  lemma {:induction false} WordFromCorrect(t: string, s: string, i: nat)
    ensures WordFrom(t, s, i) <==> exists k :: i <= k && WordAt(t, s, k)
    decreases |t| - i
  {
    if i + |s| <= |t| {
      WordFromCorrect(t, s, i + 1);
      if exists k :: i <= k && WordAt(t, s, k) {
        var k :| i <= k && WordAt(t, s, k);
        assert k == i || (i + 1 <= k && WordAt(t, s, k));
      }
    }
  }

  /** `new RegExp('\\b' + s + '\\b', 'i').test(t)`. */
  predicate HasWord(t: string, s: string)
  {
    WordFrom(t, s, 0)
  }

  lemma HasWordSpec(t: string, s: string)
    ensures HasWord(t, s) <==> ContainsWord(t, s)
  {
    WordFromCorrect(t, s, 0);
  }

  /** `extractSymbolFromText(text, { SYMBOLS: symbols })`. An absent text is
      the empty string here, and absent `SYMBOLS` is the empty list. */
  function ExtractSymbol(text: string, symbols: seq<string>): (r: Option<string>)
    ensures text == "" ==> r == None
    ensures r.Some? ==> r.value in symbols
  {
    if text == "" then None
    else
      var t := Upper(text);
      var k := Seqs.FirstIndex(symbols, s => HasWord(t, s));
      if k < |symbols| then Some(symbols[k]) else None
  }

  /** The result is `null` exactly when the text is empty or no configured
      symbol occurs in it as a whole word. */
  lemma ExtractNone(text: string, symbols: seq<string>)
    ensures ExtractSymbol(text, symbols) == None
        <==> text == "" || forall k :: 0 <= k < |symbols| ==> !ContainsWord(Upper(text), symbols[k])
  {
    var t := Upper(text);
    forall k | 0 <= k < |symbols| {
      HasWordSpec(t, symbols[k]);
    }
  }

  /** A found symbol occurs as a whole word, and every symbol configured
      before it does not: the order of the configuration decides, not the
      position in the text. */
  lemma ExtractFirstConfigured(text: string, symbols: seq<string>, k: nat)
    requires text != ""
    requires k < |symbols|
    ensures ExtractSymbol(text, symbols) == Some(symbols[k])
        <== ContainsWord(Upper(text), symbols[k]) && forall j :: 0 <= j < k ==> !ContainsWord(Upper(text), symbols[j])
    ensures ExtractSymbol(text, symbols) == Some(symbols[k]) && (forall j :: 0 <= j < k ==> symbols[j] != symbols[k])
        ==> ContainsWord(Upper(text), symbols[k]) && forall j :: 0 <= j < k ==> !ContainsWord(Upper(text), symbols[j])
  {
    var t := Upper(text);
    var p := s => HasWord(t, s);
    var f := Seqs.FirstIndex(symbols, p);
    forall j | 0 <= j < |symbols| {
      HasWordSpec(t, symbols[j]);
    }
    if ContainsWord(t, symbols[k]) && forall j :: 0 <= j < k ==> !ContainsWord(t, symbols[j]) {
      assert p(symbols[k]);
      assert f == k;
    }
    if ExtractSymbol(text, symbols) == Some(symbols[k]) && (forall j :: 0 <= j < k ==> symbols[j] != symbols[k]) {
      assert f < |symbols| && symbols[f] == symbols[k];
      assert f >= k;
    }
  }

  /** Case-insensitivity: texts that agree up to letter case give the same
      answer (so does the same text in lower case). */
  lemma ExtractIgnoresCase(a: string, b: string, symbols: seq<string>)
    requires Upper(a) == Upper(b)
    ensures ExtractSymbol(a, symbols) == ExtractSymbol(b, symbols)
    ensures ExtractSymbol(Lower(a), symbols) == ExtractSymbol(a, symbols)
  {
    UpperIdempotent(a);
    assert |Lower(a)| == |a|;
  }

  /** A symbol embedded in a longer word is not found: with the configured
      order, where "DINN" precedes "DINNPB", any spelling of "cena dinnpb"
      yields "DINNPB". */
  lemma DinnNotAWord()
    ensures !ContainsWord("CENA DINNPB", "DINN")
  {
    var t := "CENA DINNPB";
    forall i | WordAt(t, "DINN", i)
      ensures false
    {
    }
  }

  lemma DinnpbIsAWord()
    ensures ContainsWord("CENA DINNPB", "DINNPB")
  {
    var t := "CENA DINNPB";
    assert t[5..11] == "DINNPB";
    assert WordAt(t, "DINNPB", 5);
  }

  lemma EmbeddedSymbolSkipped(text: string)
    requires Upper(text) == "CENA DINNPB"
    ensures ExtractSymbol(text, ["DINN", "DINNPB"]) == Some("DINNPB")
  {
    var symbols := ["DINN", "DINNPB"];
    DinnNotAWord();
    DinnpbIsAWord();
    assert ContainsWord(Upper(text), symbols[1]);
    assert forall j :: 0 <= j < 1 ==> !ContainsWord(Upper(text), symbols[j]);
    ExtractFirstConfigured(text, symbols, 1);
  }
}

=== FILE: wrappers.dfy ===
/** Failure-compatible wrappers used across the model: `Option` for the
    source's `null`/`undefined` values and `Result` for thrown errors. */
module Wrappers {

  datatype Option<+T> = None | Some(value: T) {

    /** The value, or `default` when absent (JavaScript's `x || default` on a
        value that is never falsy when present). */
    function GetOr(default: T): T {
      match this
      case Some(v) => v
      case None => default
    }

    /** `this` when present, otherwise `other` (the `a || b` fallback). */
    function OrElse(other: Option<T>): Option<T> {
      match this
      case Some(_) => this
      case None => other
    }
  }

  datatype Result<+R, +E> = Ok(value: R) | Err(error: E)
}
